=== FILE: README.md ===
# Duty roster assignment, modelled in Dafny

`gas.js` is a Google Apps Script that fills in a monthly duty roster in
a spreadsheet. Every date of the month gets a night-duty holder (当直).
Sundays, Saturdays and holidays also get a day-duty holder (日直). Each pick
goes through `getNextDutyIndex`:

- A member is eligible when they are not in the carry-over
  (`previousDayDuty`, the latest day-duty and night-duty holders) and not on
  vacation that day.
- Among the eligible, the members with the smallest duty count of the whole
  roster come first.
- When none of those is eligible, every eligible member is a candidate.
- One candidate is drawn with `Math.random()`.
- When nobody is eligible, the run stops with an error.

The vacation index comes from `getVacationRequests`. It takes one text
cell per member for the target month, splits it on runs of white space,
commas and `、`, and reads each token with `parseInt`. `getPreviousMonth`
checks the month and `getMonthColumn` finds its column.

The model is split into these modules:

- `Staff`: a member's name, as column A of each sheet holds it.
- `Months`: `getPreviousMonth` and `getMonthColumn`.
- `Tokens`: the `split` and `parseInt` of a request cell.
- `Vacation`: `getVacationRequests` and `isOnVacation`.
- `Selection`: `getNextDutyIndex`.
- `Roster`: the per-day loop of `createShift`.
- `Rules`: the guarantees every date's row obeys.
- `Shift`: `createShift` from the month check on.

`Seqs.IndexOf` is `Array.prototype.indexOf`.

Some choices in the model:

- **Randomness.** `Math.random()` is a parameter `rng: nat -> Draw`, where
  `rng(n)` is the value of the `n`-th call.
- **The picker.** The loop reaches selection through a `Picker`.
  `SelectionPicker` plugs in `getNextDutyIndex`.
- **Soundness.** `RunSound` and `CreateShiftSound` prove that every run
  writes rows that obey the selection rules date by date. Otherwise the run
  stops at a slot nobody could take.
- **Completeness.** `RunComplete`, `RunCompleteUnfilled` and their
  `createShift` forms prove the converse: every month of rows that obeys the
  rules is written under some sequence of random values, and so is every
  such stop.

The model follows the code on every point below:

- **Counts are never written back.** Column B of the duty-count sheet is
  only read, at gas.js:272-275. So the roster and its counts are one fixed
  input for the whole run, and every pick of the month compares the same
  counts.
- **The vacation range is `B2:L`.** `getVacationRequests` reads eleven
  month columns (gas.js:217-219), while `getMonthColumn` gives March column
  11. `CreateShift` builds its index from that range, so March requests
  are never seen. `CreateShiftCorrected` reads all twelve columns. The two
  agree on every other month (`Shift.CorrectedAgreesOutsideMarch`), and
  the difference is listed under "Findings".
- **Dates on either side of a weekend.** The night pick runs after
  `previousDayDuty.day` has been overwritten by that date's day pick
  (gas.js:114), and it excludes only the carry-over as it then stands. So
  Saturday's day-duty holder may take Sunday's night duty.
  `Shift.SundayNightMayRepeatSaturdayDay` exhibits such a month.
  On a date without a day slot, `previousDayDuty.day` keeps the latest
  day-duty holder, however far back that was. So that member cannot take
  that date's night duty (`Rules.NoRepeatOfCarry`).
- **Error messages.** The "no suitable member" errors name only the role
  (gas.js:111, 128), not the date. `Unfilled` carries the rows written so
  far, the role, and the day-duty holder already written on the failing
  date.

## Model

| member | source | states |
|---|---|---|
| Seqs.IndexOf | gas.js:155 | the first position holding the value, with no earlier one, or -1 exactly when the value is absent |
| Months.PreviousMonth | gas.js:140-160 | 2..12 give the month before, 1 gives 12, and every other input is the month-format error |
| Months.PreviousMonthIsPreviousColumn | gas.js:155-159 | the previous month sits one fiscal column before the month, cyclically (April's March in column 11) |
| Months.StepsBackIteratesPreviousMonth | gas.js:140-160 | counting n months back from a month is counting n - 1 back from its getPreviousMonth |
| Months.TwelveStepsBack | gas.js:155-159 | repeated getPreviousMonth returns to a month after exactly twelve steps and not before, so every month is visited once |
| Months.MonthColumn | gas.js:238-254 | a month's column is (m + 8) mod 12 (April 0, March 11); anything else gives -1 |
| Months.MonthColumnRoundTrip | gas.js:238-254 | the column lookup and the fiscal month list are inverse bijections between months and 0..11 |
| Tokens.Split | gas.js:225 | the pieces contain no separator and there is at least one; a cell opening with a separator yields an empty first piece |
| Tokens.SplitKeepsLetters | gas.js:225 | splitting drops exactly the separator characters: the pieces glued together are the text without its separators |
| Tokens.SplitJoin | gas.js:225 | non-empty separator-free words, with any non-empty run of separators in each gap (the runs may differ), split back into exactly those words |
| Tokens.SplitSuffixGap | gas.js:225 | a run of separators after a text that does not end with one adds exactly one empty piece at the end |
| Tokens.SplitPadded | gas.js:225 | runs of separators around a text add one empty piece at each padded end, whether one end or both is padded |
| Tokens.ParseIntShow | gas.js:226 | parseInt reads a day's decimal text back as that day, whatever follows the digits, and with a leading minus as its negation |
| Tokens.NoDigitsIsNaN | gas.js:226 | a token opening with neither space, sign nor digit reads as NaN |
| Vacation.CollectKeys | gas.js:221-229 | the index holds an entry for exactly the members with a non-empty cell in some row |
| Vacation.CollectValues | gas.js:221-229 | each member's entry is the parsed cell of that member's last row with a request: later rows overwrite earlier ones |
| Vacation.OnVacationReadsColumn | gas.js:319-326 | for a column inside the range read, a member has an entry iff some row has a non-empty cell there, and isOnVacation holds for a day iff their last such cell lists it |
| Vacation.OnVacationReadsSheetCorrected | gas.js:211-231 | with all twelve month columns read, the same holds for every month, March included |
| Vacation.OnVacationReadsSheet | gas.js:211-231 | with the range B:L as written: in March nobody has an entry; in any other month a member has an entry iff some row has a non-empty cell in the month's column, and is on vacation on a day iff their last such cell lists the day |
| Vacation.CellListsDays | gas.js:225-227 | a cell listing days with any non-empty run of spaces, commas or 、 in each gap ("3, 10、24") reads as exactly those days in order |
| Vacation.CellPaddedBySeparators | gas.js:225-227 | a run of separators before the listed days adds one NaN entry at the front, one after them adds one NaN entry at the end, either run may be absent ("3, 10," or " 3"), and nothing else changes |
| Vacation.NoColumnNoRequests | gas.js:223-224 | a column outside the range read gives an empty index |
| Vacation.MarchIgnoredAsWritten | gas.js:217-219 | with the range B:L as written, the index for March is empty whatever the sheet holds |
| Vacation.MarchRequestHonoured | gas.js:217-223 | with all twelve month columns read, a member's non-empty March cell gives them an entry; as written it does not |
| Vacation.OtherMonthsUnaffected | gas.js:217-223 | for every month other than March the written range and the full range build the same index |
| Selection.CountOfReadsFirstRow | gas.js:272-275 | the count read for a member is the count in the first row carrying that member's name |
| Selection.CountOfDistinct | gas.js:272-275 | a member listed once reads their own row's count |
| Selection.MinOf | gas.js:277 | the minimum is one of the counts and no count is smaller |
| Selection.MinCountIsSmallest | gas.js:277 | some member has the minimum count and no member has less |
| Selection.Scan | gas.js:280-302 | either loop pushes exactly the qualifying indices, in increasing order |
| Selection.TierOneMeaning | gas.js:280-291 | a non-empty first loop holds exactly the eligible members of minimum count, which are then the tier |
| Selection.TierTwoMeaning | gas.js:292-303 | after an empty first loop the second holds exactly the eligible members, and is empty iff nobody is eligible |
| Selection.Candidates | gas.js:277-303 | the candidate list holds exactly the tier, and is empty iff nobody is eligible |
| Selection.Choose | gas.js:309 | the drawn position is inside the candidate list |
| Selection.ChooseHits | gas.js:309 | every position of the candidate list is drawn by some value in [0, 1) |
| Selection.NextDutyIndex | gas.js:265-310 | -1 iff no member is eligible; otherwise an index of an eligible member in the tier, of minimum count whenever an eligible member of minimum count exists |
| Selection.EveryCandidateReachable | gas.js:305-309 | every member of the tier is the result for some value of Math.random() |
| Selection.RelaxedOnlyWhenFairExcluded | gas.js:280-303 | a pick above the minimum count means every member of minimum count was excluded |
| Roster.SelectionPickerFaithful | gas.js:265-310 | selection returns nothing iff nobody is eligible, otherwise a member of the tier, and each member of the tier for some draw |
| Roster.StepSound | gas.js:101-131 | a filled date has a day holder iff it has a day slot, both picks valid, the night pick under the carry updated by the day pick, the carry moved on, one draw per pick; an unfilled date failed a slot with nobody eligible |
| Roster.RunFrom | gas.js:78-132 | a completed run has one row per date, a stopped run fewer |
| Roster.RowsOkAt | gas.js:78-132 | the rows obey the loop's rules as a whole iff each row obeys them from the carry-over the earlier rows leave |
| Roster.RunFromSound | gas.js:78-132 | every outcome from any date on consists of valid rows, ending on their carry-over or at a slot nobody could take |
| Roster.RunSound | gas.js:78-132 | every run writes a month of valid rows ending on its carry-over, or valid rows followed by a slot nobody could take |
| Roster.RunFromAgrees | gas.js:78-132 | the rest of a run depends only on the random values from its position on |
| Roster.RunComplete | gas.js:78-132 | every month of valid rows is the outcome of some run |
| Roster.RunCompleteUnfilled | gas.js:78-132 | every stop at a slot nobody can take, after valid rows, is the outcome of some run |
| Rules.CarryIsLatestHolders | gas.js:102-131 | before each date the carry-over holds the latest night-duty holder and the latest day-duty holder written, or the seed's |
| Rules.PickEligible | gas.js:280-302 | a possible pick is on the roster and eligible |
| Rules.PickFair | gas.js:277-291 | a possible pick has the minimum count whenever an eligible member has it |
| Rules.SlotsOfDate | gas.js:102-131 | for every row written, in a whole month or before a "no suitable member" error: day duty is filled exactly on Sundays, Saturdays and holidays, never by the date's night holder, and no holder is on vacation or off the roster |
| Rules.NoRepeatOfCarry | gas.js:102-131 | for every row written, in a whole month or before an error: no night duty two dates running, no day duty for a carried-over holder, and on dates without a day slot no night duty for the latest day-duty holder |
| Rules.FairPicks | gas.js:280-291 | each pick written, in a whole month or before an error, has the minimum count whenever an eligible member of minimum count existed for that slot |
| Shift.CreateShift | gas.js:21-132 | the month-format error iff the month is not 1..12; otherwise, with the index built from B:L, a full month of rows or a stop before the last date |
| Shift.CreateShiftCorrected | gas.js:21-132 | the same, with the index built from all twelve month columns |
| Shift.CorrectedAgreesOutsideMarch | gas.js:217-223 | outside March, the written and the corrected createShift give the same result for the same random values |
| Shift.MarchRunsWithoutRequests | gas.js:217-224 | in March, createShift runs exactly as with no vacation requests at all |
| Shift.CreateShiftSound | gas.js:69-132 | every outcome for a valid month is valid rows under the index built from B:L, completed or stopped at a slot nobody could take |
| Shift.CreateShiftCorrectedSound | gas.js:69-132 | the same for the corrected createShift under the twelve-column index, so no pick lands on a day its holder asked off, in March too |
| Shift.CreateShiftComplete | gas.js:69-132 | every month of rows valid under the index built from B:L is written by createShift for some random values |
| Shift.CreateShiftCompleteUnfilled | gas.js:69-132 | every stop at a slot nobody can take, after rows valid under the index built from B:L, is an outcome of createShift |
| Shift.SundayNightMayRepeatSaturdayDay | gas.js:102-131 | createShift can give Sunday's night duty to Saturday's day-duty holder |
| Shift.MarchWrittenFillsFifth | gas.js:217-229 | as written, when "a" is the only member of the roster and their March cell is "5", "a" is given night duty on Tuesday 5 March, whatever the random values |
| Shift.MarchCorrectedLeavesFifthOpen | gas.js:217-229 | with twelve columns read, the same request leaves that night slot with nobody eligible |
| Shift.MarchRequestOverlooked | gas.js:217-229 | the written and the corrected createShift differ on that March sheet |

## Left out

- Spreadsheet I/O is not modelled. That covers sheet lookups and their "sheet not found" errors, `getRange` reads and writes, clearing columns C and D, and copying the previous month's last row into row 2. The sheet contents are inputs: the dates, the roster with its counts, the vacation rows, and the previous month's last row as the seed `Carry`.
- The `確定済` early return is left out. It only reads a cell and stops.
- Background colouring (gas.js:85-99) is left out. It only affects display.
- `initializeMonthSheet`, `getHolidays` and `Utilities.formatDate` rely on JavaScript `Date` and time zones. Each date is an input `DateInfo`: day of month, weekday, and whether it is a holiday.
- `Math.random()` is a parameter `rng`. Choose computes `floor(u * n)` in exact real arithmetic. Floating-point rounding of `u * n` is not modelled.
- Selection.CountOf: a count is modelled as an integer compared exactly. A cell of another type (text, blank) and `Math.min` over such values are not modelled.
- Vacation.ParseCell: a cell must be text. A numeric cell, which the sheet may store for a single day, would make `split` throw. `parseInt` is modelled on arbitrary-precision integers, and "-0" reads as 0.
- Vacation.OnVacation: member names are keys of a Dafny map. A name that clashes with a JavaScript object property such as `constructor` is not modelled.
- The month is modelled as an integer. The source concatenates the cell's value with "月", so a text cell such as "07" or "7.0" would behave differently from the number 7.
- Duty counts are never incremented, because the code never writes them (gas.js:272-275 only reads column B).

## Findings

| source | as written | input that shows it | evidently intended | confidence | as-written member | corrected member |
|---|---|---|---|---|---|---|
| gas.js:217-219 | the vacation range is `B2:L`, eleven month columns, but the fiscal year has twelve and `getMonthColumn('3')` is 11 | month 3, one member "a" with count 0 whose March cell (column M) is "5", date Tuesday 5 March, carry-over ("x", "y"): "a" is given night duty on a day they asked off | read `B2:M` so that March requests are honoured | high; not executed | Shift.MarchRequestOverlooked | Shift.CreateShiftCorrectedSound |

=== FILE: basics.dfy ===
/** A value that may be missing: a JavaScript `NaN` from `parseInt`, an
    `undefined` array cell, or an empty day-duty slot. */
module Wrappers {

  datatype Option<+T> = None | Some(value: T)
}

/** Members of the roster are known by the name in column A of the
    duty-count and vacation-request sheets. */
module Staff {
  type Name = string
}

/** Sequence helpers with the meaning of the JavaScript array methods the
    roster code calls. */
module Seqs {

  /** `Array.prototype.indexOf`: the position of the first occurrence of `x`,
      or -1 when `x` does not occur. */
  function IndexOf<T(==)>(s: seq<T>, x: T): (r: int)
    ensures r == -1 <==> x !in s
    ensures r != -1 ==> 0 <= r < |s| && s[r] == x && x !in s[..r]
  {
    if |s| == 0 then -1
    else if s[0] == x then 0
    else
      var r := IndexOf(s[1..], x);
      if r == -1 then -1
      else
        assert s[1..][..r] == s[1..r + 1];
        assert s[..r + 1] == [s[0]] + s[1..r + 1];
        r + 1
  }

  /** The first occurrence is where `x` sits when no earlier element is `x`. */
  lemma IndexOfAt<T>(s: seq<T>, x: T, r: int)
    requires 0 <= r < |s| && s[r] == x
    requires forall k :: 0 <= k < r ==> s[k] != x
    ensures IndexOf(s, x) == r
  {
    assert s[r] in s;
  }

  lemma IndexOfAbsent<T>(s: seq<T>, x: T)
    requires forall k :: 0 <= k < |s| ==> s[k] != x
    ensures IndexOf(s, x) == -1
  {
  }
}

=== FILE: months.dfy ===
/** Month arithmetic of the roster workbook: the month sheets are named
    "1月" .. "12月", and the vacation-request sheet has one column per month
    of a fiscal year that begins in April. A month is the number typed into
    the creation sheet; the source appends "月" to it and looks it up in a
    list of month names, which amounts to looking the number up in a list of
    month numbers. */
module Months {
  import opened Wrappers
  import Seqs

  /** The names listed by `getPreviousMonth`, January first. */
  const CalendarOrder: seq<int> := [1, 2, 3, 4, 5, 6, 7, 8, 9, 10, 11, 12]

  /** The names listed by `getMonthColumn`, April first. */
  const FiscalOrder: seq<int> := [4, 5, 6, 7, 8, 9, 10, 11, 12, 1, 2, 3]

  predicate IsMonth(month: int) {
    1 <= month <= 12
  }

  lemma CalendarOrderIsIdentityPlusOne()
    ensures forall k :: 0 <= k < 12 ==> CalendarOrder[k] == k + 1
  {
  }

  lemma FiscalOrderRotatesByThree()
    ensures forall k :: 0 <= k < 12 ==> FiscalOrder[k] == if k < 9 then k + 4 else k - 8
  {
  }

  /** The closed form of a fiscal column, without the modulus. */
  lemma FiscalColumnClosedForm(month: int)
    requires IsMonth(month)
    ensures (month + 8) % 12 == if month >= 4 then month - 4 else month + 8
  {
  }

  /** One step back around a twelve-entry list, without the modulus. */
  lemma StepBackClosedForm(index: int)
    requires 0 <= index < 12
    ensures (index + 11) % 12 == if index == 0 then 11 else index - 1
  {
  }

  /** Where a number sits in the calendar list: month m at m - 1. */
  lemma CalendarIndex(month: int)
    ensures Seqs.IndexOf(CalendarOrder, month) == if IsMonth(month) then month - 1 else -1
  {
    CalendarOrderIsIdentityPlusOne();
    if IsMonth(month) {
      Seqs.IndexOfAt(CalendarOrder, month, month - 1);
    } else {
      Seqs.IndexOfAbsent(CalendarOrder, month);
    }
  }

  /** Where a number sits in the fiscal list: April at 0, March at 11. */
  lemma FiscalIndex(month: int)
    ensures Seqs.IndexOf(FiscalOrder, month) == if IsMonth(month) then (month + 8) % 12 else -1
  {
    FiscalOrderRotatesByThree();
    if IsMonth(month) {
      FiscalColumnClosedForm(month);
      var c := if month >= 4 then month - 4 else month + 8;
      forall k | 0 <= k < c
        ensures FiscalOrder[k] != month
      {
        assert FiscalOrder[k] == if k < 9 then k + 4 else k - 8;
      }
      Seqs.IndexOfAt(FiscalOrder, month, c);
    } else {
      forall k | 0 <= k < 12
        ensures FiscalOrder[k] != month
      {
        assert FiscalOrder[k] == if k < 9 then k + 4 else k - 8;
      }
      Seqs.IndexOfAbsent(FiscalOrder, month);
    }
  }

  /** `getPreviousMonth`: the cyclic predecessor of a month; `None` stands for
      the "month format is not correct" error the source throws. */
  function PreviousMonth(month: int): (r: Option<int>)
    ensures r.None? <==> !IsMonth(month)
    ensures 2 <= month <= 12 ==> r == Some(month - 1)
    ensures month == 1 ==> r == Some(12)
  {
    CalendarIndex(month);
    CalendarOrderIsIdentityPlusOne();
    var index := Seqs.IndexOf(CalendarOrder, month);
    if index == -1 then None
    else
      StepBackClosedForm(index);
      Some(CalendarOrder[(index + 11) % 12])
  }

  /** `getMonthColumn`: the offset of a month within the fiscal year
      (April is 0, March is 11), or -1 for anything that is not a month. */
  function MonthColumn(month: int): (col: int)
    ensures IsMonth(month) ==> col == (month + 8) % 12
    ensures !IsMonth(month) ==> col == -1
    ensures -1 <= col < 12
  {
    FiscalIndex(month);
    Seqs.IndexOf(FiscalOrder, month)
  }

  /** The fiscal column is a bijection between months and 0..11: reading the
      month back out of the column it selects gives the month again. */
  lemma {:induction false} MonthColumnRoundTrip(month: int, col: int)
    ensures IsMonth(month) ==> FiscalOrder[MonthColumn(month)] == month
    ensures 0 <= col < 12 ==> MonthColumn(FiscalOrder[col]) == col
  {
    FiscalOrderRotatesByThree();
    if 0 <= col < 12 {
      assert IsMonth(FiscalOrder[col]);
    }
  }

  /** The two month tables agree: the previous month occupies the previous
      fiscal column, cyclically (April's predecessor March sits in column 11). */
  lemma {:induction false} PreviousMonthIsPreviousColumn(month: int)
    requires IsMonth(month)
    ensures PreviousMonth(month).Some?
    ensures MonthColumn(PreviousMonth(month).value) == (MonthColumn(month) + 11) % 12
  {
    var p := PreviousMonth(month).value;
    FiscalColumnClosedForm(month);
    FiscalColumnClosedForm(p);
    StepBackClosedForm(MonthColumn(month));
  }

  /** The month `n` months before `month`, counted around the calendar.
      Each step uses the predecessor `PreviousMonth` is proved to return
      rather than calling it, so that reasoning by induction on `n` does not
      unfold its table lookup at every step;
      `StepsBackIteratesPreviousMonth` shows each step is `PreviousMonth`. */
  function StepsBack(month: int, n: nat): (r: int)
    requires IsMonth(month)
    ensures IsMonth(r)
    decreases n
  {
    if n == 0 then month else StepsBack(if month == 1 then 12 else month - 1, n - 1)
  }

  /** Counting back is iterating `getPreviousMonth`: `n` months before a
      month are `n - 1` months before its predecessor. */
  lemma StepsBackIteratesPreviousMonth(month: int, n: nat)
    requires IsMonth(month) && n > 0
    ensures StepsBack(month, n) == StepsBack(PreviousMonth(month).value, n - 1)
  {
    var p := if month == 1 then 12 else month - 1;
    assert PreviousMonth(month) == Some(p);
    assert StepsBack(month, n) == StepsBack(p, n - 1);
  }

  /** Within a year, `n` steps back from month m land on m - n, or on
      m - n + 12 once they have passed January. */
  lemma {:induction false} StepsBackWithinYear(month: int, n: nat)
    requires IsMonth(month) && n < 12
    ensures StepsBack(month, n) == if n < month then month - n else month - n + 12
    decreases n
  {
    if n > 0 {
      StepsBackWithinYear(if month == 1 then 12 else month - 1, n - 1);
    }
  }

  /** Stepping back from a month with `getPreviousMonth` visits every other
      month before it comes back, after exactly twelve steps. */
  lemma TwelveStepsBack(month: int)
    requires IsMonth(month)
    ensures StepsBack(month, 12) == month
    ensures forall n: nat :: 0 < n < 12 ==> StepsBack(month, n) != month
  {
    StepsBackWithinYear(if month == 1 then 12 else month - 1, 11);
    forall n: nat | 0 < n < 12
      ensures StepsBack(month, n) != month
    {
      StepsBackWithinYear(month, n);
    }
  }
}

=== FILE: roster.dfy ===
/** The per-day assignment loop of `createShift`: for each date of the
    month in order, a day-duty pick on Sundays, Saturdays and holidays, then
    a night-duty pick on every date, each pick avoiding the carried-over
    holders of both duties. The run stops at the first slot nobody can take.

    The loop reaches selection through a `Picker`; `createShift` passes
    `getNextDutyIndex` (see `SelectionPicker`), and the loop's properties
    are proved for every picker that behaves as selection does
    (`SoundPicker`, `CompletePicker`). */
module Roster {
  import opened Wrappers
  import opened Staff
  import opened Selection
  import Vacation

  /** What the loop reads of one date: `getDate()`, `getDay()` (0 is
      Sunday, 6 is Saturday) and whether the holiday list holds it. */
  datatype DateInfo = DateInfo(dayOfMonth: int, weekday: int, isHoliday: bool)

  /** Column C gets a day-duty holder only on these dates. */
  predicate HasDaySlot(d: DateInfo) {
    d.weekday == 0 || d.weekday == 6 || d.isHoliday
  }

  datatype Role = DayDuty | NightDuty

  /** Columns C and D of one date's row. */
  datatype Row = Row(day: Option<Name>, night: Name)

  /** How a run ends. `Unfilled` is one of the two "no suitable member"
      errors: `rows` are the dates completed before it, `role` the slot that
      found no candidate, and `partialDay` the day-duty holder already
      written on the failing date. */
  datatype Outcome =
    | Completed(rows: seq<Row>, carry: Carry)
    | Unfilled(rows: seq<Row>, role: Role, partialDay: Option<Name>)

  /** `Math.random()`: the value its `n`-th call returns. */
  type Rng = nat -> Draw

  /** `getNextDutyIndex` followed by `memberList[index]`: the member picked
      for a slot under a carry-over, a day of the month and a value of
      `Math.random()`; `None` is the index -1. */
  type Picker = (Carry, int, Draw) -> Option<Name>

  /** The loop's state between picks: `previousDayDuty` and how many random
      values have been drawn. */
  datatype State = State(carry: Carry, used: nat)

  datatype StepResult =
    | Filled(row: Row, next: State)
    | NoCandidate(role: Role, partialDay: Option<Name>)

  // ---- selection, as the loop sees it ----

  /** `memberList[getNextDutyIndex(...)]`, or `None` for -1. */
  function Pick(ledger: seq<LedgerRow>, req: Vacation.Requests, c: Carry, dayOfMonth: int,
                u: Draw): Option<Name> {
    var k := NextDutyIndex(ledger, c, dayOfMonth, req, u);
    if k == -1 then None else Some(ledger[k].name)
  }

  /** The picker `createShift` uses. */
  function SelectionPicker(ledger: seq<LedgerRow>, req: Vacation.Requests): Picker {
    (c: Carry, dayOfMonth: int, u: Draw) => Pick(ledger, req, c, dayOfMonth, u)
  }

  /** `name` is a possible result of selection under carry `c`. */
  predicate ValidPick(ledger: seq<LedgerRow>, c: Carry, dayOfMonth: int, req: Vacation.Requests,
                      name: Name) {
    exists i :: 0 <= i < |ledger| && InTier(ledger, c, dayOfMonth, req, i) && ledger[i].name == name
  }

  /** A picker that returns nothing exactly when nobody is eligible, and
      otherwise a candidate of selection. */
  ghost predicate SoundPicker(ledger: seq<LedgerRow>, req: Vacation.Requests, pick: Picker) {
    forall c: Carry, dayOfMonth: int, u: Draw ::
      && (pick(c, dayOfMonth, u).None? <==> NoneEligible(ledger, c, dayOfMonth, req))
      && (pick(c, dayOfMonth, u).Some? ==> ValidPick(ledger, c, dayOfMonth, req,
                                                     pick(c, dayOfMonth, u).value))
  }

  /** A picker that returns every candidate of selection under some value
      of `Math.random()`. */
  ghost predicate CompletePicker(ledger: seq<LedgerRow>, req: Vacation.Requests, pick: Picker) {
    forall c: Carry, dayOfMonth: int, name: Name ::
      ValidPick(ledger, c, dayOfMonth, req, name) ==>
        exists u: Draw :: pick(c, dayOfMonth, u) == Some(name)
  }

  /** Selection is such a picker: it fails only when nobody is eligible, it
      returns a member of the candidate tier, and every member of that tier
      is returned for some value of `Math.random()`. */
  lemma SelectionPickerFaithful(ledger: seq<LedgerRow>, req: Vacation.Requests)
    ensures SoundPicker(ledger, req, SelectionPicker(ledger, req))
    ensures CompletePicker(ledger, req, SelectionPicker(ledger, req))
  {
    var pick := SelectionPicker(ledger, req);
    forall c: Carry, dayOfMonth: int, u: Draw
      ensures (pick(c, dayOfMonth, u).None? <==> NoneEligible(ledger, c, dayOfMonth, req))
      ensures pick(c, dayOfMonth, u).Some? ==>
              ValidPick(ledger, c, dayOfMonth, req, pick(c, dayOfMonth, u).value)
    {
      var k := NextDutyIndex(ledger, c, dayOfMonth, req, u);
      assert pick(c, dayOfMonth, u) == Pick(ledger, req, c, dayOfMonth, u);
    }
    forall c: Carry, dayOfMonth: int, name: Name | ValidPick(ledger, c, dayOfMonth, req, name)
      ensures exists u: Draw :: pick(c, dayOfMonth, u) == Some(name)
    {
      var i :| 0 <= i < |ledger| && InTier(ledger, c, dayOfMonth, req, i) && ledger[i].name == name;
      EveryCandidateReachable(ledger, c, dayOfMonth, req, i);
      var u: Draw :| NextDutyIndex(ledger, c, dayOfMonth, req, u) == i;
      assert pick(c, dayOfMonth, u) == Pick(ledger, req, c, dayOfMonth, u);
    }
  }

  // ---- the loop ----

  /** `previousDayDuty.day = ...` after a day-duty pick; unchanged when the
      date has no day slot. */
  function AfterDay(c: Carry, day: Option<Name>): Carry {
    if day.Some? then c.(day := day.value) else c
  }

  /** The carry-over once a date's row is complete. */
  function Advance(c: Carry, row: Row): Carry {
    AfterDay(c, row.day).(night := row.night)
  }

  /** A date's row is one the loop can write given the carry-over `c` it
      starts from: a day-duty holder exactly on day-slot dates, each pick a
      possible result of selection, the night pick made after the carry has
      taken the day pick. */
  predicate RowOk(ledger: seq<LedgerRow>, req: Vacation.Requests, d: DateInfo, c: Carry, row: Row) {
    && (row.day.Some? <==> HasDaySlot(d))
    && (row.day.Some? ==> ValidPick(ledger, c, d.dayOfMonth, req, row.day.value))
    && ValidPick(ledger, AfterDay(c, row.day), d.dayOfMonth, req, row.night)
  }

  /** The run can stop at date `d` with this error: the slot named by
      `role` had no eligible member at all. */
  predicate FailsAt(ledger: seq<LedgerRow>, req: Vacation.Requests, d: DateInfo, c: Carry,
                    role: Role, partialDay: Option<Name>) {
    match role
    case DayDuty =>
      HasDaySlot(d) && partialDay.None? && NoneEligible(ledger, c, d.dayOfMonth, req)
    case NightDuty =>
      && (partialDay.Some? <==> HasDaySlot(d))
      && (partialDay.Some? ==> ValidPick(ledger, c, d.dayOfMonth, req, partialDay.value))
      && NoneEligible(ledger, AfterDay(c, partialDay), d.dayOfMonth, req)
  }

  /** The night-duty half of one iteration. */
  function NightStep(pick: Picker, rng: Rng, d: DateInfo, day: Option<Name>,
                     st: State): StepResult {
    match pick(st.carry, d.dayOfMonth, rng(st.used))
    case None => NoCandidate(NightDuty, day)
    case Some(name) => Filled(Row(day, name), State(st.carry.(night := name), st.used + 1))
  }

  /** One iteration of the loop: the day-duty pick when the date has a day
      slot, then the night-duty pick. */
  function Step(pick: Picker, rng: Rng, d: DateInfo, st: State): StepResult {
    if HasDaySlot(d) then
      match pick(st.carry, d.dayOfMonth, rng(st.used))
      case None => NoCandidate(DayDuty, None)
      case Some(name) => NightStep(pick, rng, d, Some(name),
                                   State(st.carry.(day := name), st.used + 1))
    else NightStep(pick, rng, d, None, st)
  }

  /** How many values of `Math.random()` one date consumes when filled. */
  function DrawsFor(d: DateInfo): nat {
    if HasDaySlot(d) then 2 else 1
  }

  /** A filled date is a row the loop can write, the carry moves on by it
      and one value is drawn per pick; an unfilled date is one whose failing
      slot had no candidate. */
  lemma StepSound(ledger: seq<LedgerRow>, req: Vacation.Requests, pick: Picker, rng: Rng,
                  d: DateInfo, st: State)
    requires SoundPicker(ledger, req, pick)
    ensures var res := Step(pick, rng, d, st);
            && (res.Filled? ==>
                  RowOk(ledger, req, d, st.carry, res.row)
                  && res.next.carry == Advance(st.carry, res.row))
            && (res.Filled? ==> res.next.used == st.used + DrawsFor(d))
            && (res.NoCandidate? ==> FailsAt(ledger, req, d, st.carry, res.role, res.partialDay))
  {
    var u := rng(st.used);
    var v := rng(st.used + 1);
    if HasDaySlot(d) {
      if pick(st.carry, d.dayOfMonth, u).Some? {
        var c1 := st.carry.(day := pick(st.carry, d.dayOfMonth, u).value);
        assert pick(c1, d.dayOfMonth, v).None? <==> NoneEligible(ledger, c1, d.dayOfMonth, req);
      }
    } else {
      assert pick(st.carry, d.dayOfMonth, u).None? <==>
             NoneEligible(ledger, st.carry, d.dayOfMonth, req);
    }
  }

  /** An outcome with rows for earlier dates put in front. */
  function Prepend(earlier: seq<Row>, o: Outcome): Outcome {
    match o
    case Completed(rows, c) => Completed(earlier + rows, c)
    case Unfilled(rows, role, partialDay) => Unfilled(earlier + rows, role, partialDay)
  }

  /** The loop from date `i` on. */
  function RunFrom(pick: Picker, rng: Rng, dates: seq<DateInfo>, i: int, st: State): (o: Outcome)
    requires 0 <= i <= |dates|
    ensures o.Completed? ==> |o.rows| == |dates| - i
    ensures o.Unfilled? ==> |o.rows| < |dates| - i
    decreases |dates| - i
  {
    if i == |dates| then Completed([], st.carry)
    else
      match Step(pick, rng, dates[i], st)
      case NoCandidate(role, partialDay) => Unfilled([], role, partialDay)
      case Filled(row, next) => Prepend([row], RunFrom(pick, rng, dates, i + 1, next))
  }

  /** The loop over a whole month, from the previous month's last row. */
  function Run(pick: Picker, rng: Rng, dates: seq<DateInfo>, seed: Carry): Outcome {
    RunFrom(pick, rng, dates, 0, State(seed, 0))
  }

  // ---- the rows a run writes, described without the run ----

  /** The carry-over in force before row `t`, starting from `c`. */
  function CarryBefore(c: Carry, rows: seq<Row>, t: int): Carry
    requires 0 <= t <= |rows|
    decreases t
  {
    if t == 0 then c else CarryBefore(Advance(c, rows[0]), rows[1..], t - 1)
  }

  /** Rows `rows`, written for dates `i`, `i + 1`, ..., are each a row the
      loop can write, each from the carry-over the rows before it leave. */
  predicate RowsOkFrom(ledger: seq<LedgerRow>, req: Vacation.Requests, dates: seq<DateInfo>,
                       i: int, c: Carry, rows: seq<Row>)
    decreases |rows|
  {
    && 0 <= i
    && i + |rows| <= |dates|
    && (|rows| > 0 ==>
          && RowOk(ledger, req, dates[i], c, rows[0])
          && RowsOkFrom(ledger, req, dates, i + 1, Advance(c, rows[0]), rows[1..]))
  }

  /** A complete month of rows the loop can write from carry-over `seed`. */
  predicate Conforms(ledger: seq<LedgerRow>, req: Vacation.Requests, dates: seq<DateInfo>,
                     seed: Carry, rows: seq<Row>) {
    |rows| == |dates| && RowsOkFrom(ledger, req, dates, 0, seed, rows)
  }

  lemma CarryBeforeCons(c: Carry, row: Row, rows: seq<Row>, t: int)
    requires 1 <= t <= |rows| + 1
    ensures CarryBefore(c, [row] + rows, t) == CarryBefore(Advance(c, row), rows, t - 1)
  {
    assert ([row] + rows)[1..] == rows;
  }

  lemma RowsOkCons(ledger: seq<LedgerRow>, req: Vacation.Requests, dates: seq<DateInfo>, i: int,
                   c: Carry, row: Row, rows: seq<Row>)
    requires 0 <= i < |dates|
    ensures RowsOkFrom(ledger, req, dates, i, c, [row] + rows) <==>
              RowOk(ledger, req, dates[i], c, row) &&
                RowsOkFrom(ledger, req, dates, i + 1, Advance(c, row), rows)
  {
    assert ([row] + rows)[1..] == rows;
  }

  /** The first of rows the loop can write, and the rows after it. */
  lemma RowsOkHead(ledger: seq<LedgerRow>, req: Vacation.Requests, dates: seq<DateInfo>, i: int,
                   c: Carry, rows: seq<Row>)
    requires RowsOkFrom(ledger, req, dates, i, c, rows) && |rows| > 0
    ensures 0 <= i && i + |rows| <= |dates|
    ensures RowOk(ledger, req, dates[i], c, rows[0])
    ensures RowsOkFrom(ledger, req, dates, i + 1, Advance(c, rows[0]), rows[1..])
  {
  }

  /** The rows of a month the loop can write, one date at a time: each row
      is one the loop can write from the carry-over in force before it. */
  lemma {:induction false} RowsOkAt(ledger: seq<LedgerRow>, req: Vacation.Requests,
                                    dates: seq<DateInfo>, i: int, c: Carry, rows: seq<Row>)
    requires 0 <= i && i + |rows| <= |dates|
    ensures RowsOkFrom(ledger, req, dates, i, c, rows) <==>
              forall t :: 0 <= t < |rows| ==>
                RowOk(ledger, req, dates[i + t], CarryBefore(c, rows, t), rows[t])
    decreases |rows|
  {
    if |rows| > 0 {
      var row := rows[0];
      var tail := rows[1..];
      RowsOkAt(ledger, req, dates, i + 1, Advance(c, row), tail);
      forall t | 1 <= t < |rows|
        ensures CarryBefore(c, rows, t) == CarryBefore(Advance(c, row), tail, t - 1)
        ensures rows[t] == tail[t - 1]
        ensures dates[i + t] == dates[(i + 1) + (t - 1)]
      {
      }
      if RowsOkFrom(ledger, req, dates, i, c, rows) {
        forall t | 0 <= t < |rows|
          ensures RowOk(ledger, req, dates[i + t], CarryBefore(c, rows, t), rows[t])
        {
          if t > 0 {
            assert RowOk(ledger, req, dates[(i + 1) + (t - 1)],
                         CarryBefore(Advance(c, row), tail, t - 1), tail[t - 1]);
          }
        }
      }
      if forall t :: 0 <= t < |rows| ==>
        RowOk(ledger, req, dates[i + t], CarryBefore(c, rows, t), rows[t]) {
        assert RowOk(ledger, req, dates[i + 0], CarryBefore(c, rows, 0), rows[0]);
        forall t | 0 <= t < |tail|
          ensures RowOk(ledger, req, dates[(i + 1) + t], CarryBefore(Advance(c, row), tail, t),
                        tail[t])
        {
          assert RowOk(ledger, req, dates[i + (t + 1)], CarryBefore(c, rows, t + 1), rows[t + 1]);
        }
      }
    }
  }

  /** What soundness says about an outcome of the loop started at date `i`
      with carry-over `c`. */
  predicate SoundFrom(ledger: seq<LedgerRow>, req: Vacation.Requests, dates: seq<DateInfo>, i: int,
                      c: Carry, o: Outcome) {
    && 0 <= i <= |dates|
    && RowsOkFrom(ledger, req, dates, i, c, o.rows)
    && (o.Completed? ==> i + |o.rows| == |dates| && o.carry == CarryBefore(c, o.rows, |o.rows|))
    && (o.Unfilled? ==> i + |o.rows| < |dates|
                        && FailsAt(ledger, req, dates[i + |o.rows|],
                                   CarryBefore(c, o.rows, |o.rows|), o.role, o.partialDay))
  }

  lemma PrependSound(ledger: seq<LedgerRow>, req: Vacation.Requests, dates: seq<DateInfo>, i: int,
                     c: Carry, row: Row, rest: Outcome)
    requires 0 <= i < |dates|
    requires RowOk(ledger, req, dates[i], c, row)
    requires SoundFrom(ledger, req, dates, i + 1, Advance(c, row), rest)
    ensures SoundFrom(ledger, req, dates, i, c, Prepend([row], rest))
  {
    RowsOkCons(ledger, req, dates, i, c, row, rest.rows);
    CarryBeforeCons(c, row, rest.rows, |rest.rows| + 1);
    assert Prepend([row], rest).rows == [row] + rest.rows;
  }

  /** Every outcome of the loop is described by the rows alone: completed
      months consist of rows the loop can write and end on the carry-over of
      the last row; an unfilled month stops at a date where the failing slot
      had no eligible member. */
  lemma {:induction false} RunFromSound(ledger: seq<LedgerRow>, req: Vacation.Requests,
                                        pick: Picker, rng: Rng, dates: seq<DateInfo>, i: int,
                                        st: State)
    requires SoundPicker(ledger, req, pick)
    requires 0 <= i <= |dates|
    ensures SoundFrom(ledger, req, dates, i, st.carry, RunFrom(pick, rng, dates, i, st))
    decreases |dates| - i
  {
    var o := RunFrom(pick, rng, dates, i, st);
    if i == |dates| {
      assert o == Completed([], st.carry);
      assert CarryBefore(st.carry, [], 0) == st.carry;
    } else {
      var step := Step(pick, rng, dates[i], st);
      StepSound(ledger, req, pick, rng, dates[i], st);
      if step.Filled? {
        var rest := RunFrom(pick, rng, dates, i + 1, step.next);
        assert o == Prepend([step.row], rest);
        RunFromSound(ledger, req, pick, rng, dates, i + 1, step.next);
        PrependSound(ledger, req, dates, i, st.carry, step.row, rest);
      } else {
        assert o == Unfilled([], step.role, step.partialDay);
        assert CarryBefore(st.carry, [], 0) == st.carry;
      }
    }
  }

  /** Every completed run writes a month of rows the loop can write, and
      every stopped run stops at a slot nobody could take. */
  lemma RunSound(ledger: seq<LedgerRow>, req: Vacation.Requests, pick: Picker, rng: Rng,
                 dates: seq<DateInfo>, seed: Carry)
    requires SoundPicker(ledger, req, pick)
    ensures var o := Run(pick, rng, dates, seed);
            o.Completed? ==>
              (Conforms(ledger, req, dates, seed, o.rows)
               && o.carry == CarryBefore(seed, o.rows, |o.rows|))
    ensures var o := Run(pick, rng, dates, seed);
            o.Unfilled? ==> |o.rows| < |dates| && RowsOkFrom(ledger, req, dates, 0, seed, o.rows)
                            && FailsAt(ledger, req, dates[|o.rows|],
                                       CarryBefore(seed, o.rows, |o.rows|), o.role, o.partialDay)
  {
    RunFromSound(ledger, req, pick, rng, dates, 0, State(seed, 0));
  }

  // ---- every such month is a possible run ----

  /** A value of `Math.random()` under which the picker returns `name`. */
  ghost function PickDraw(ledger: seq<LedgerRow>, req: Vacation.Requests, pick: Picker, c: Carry,
                          dayOfMonth: int, name: Name): (u: Draw)
    requires CompletePicker(ledger, req, pick) && ValidPick(ledger, c, dayOfMonth, req, name)
    ensures pick(c, dayOfMonth, u) == Some(name)
  {
    var u: Draw :| pick(c, dayOfMonth, u) == Some(name);
    u
  }

  /** How many values dates `i` .. `i + n - 1` consume when filled. */
  function DrawCount(dates: seq<DateInfo>, i: int, n: int): nat
    requires 0 <= i && 0 <= n && i + n <= |dates|
    decreases n
  {
    if n == 0 then 0 else DrawsFor(dates[i]) + DrawCount(dates, i + 1, n - 1)
  }

  /** Two sources of random values that agree from call `from` on. */
  ghost predicate AgreeFrom(r1: Rng, r2: Rng, from: nat) {
    forall k: nat :: from <= k ==> r1(k) == r2(k)
  }

  /** `rng`, except that call `k` returns `u`. */
  ghost function Override(rng: Rng, k: nat, u: Draw): Rng {
    (j: nat) => if j == k then u else rng(j)
  }

  /** One iteration reads only the random values from its own position on. */
  lemma StepAgrees(pick: Picker, r1: Rng, r2: Rng, d: DateInfo, st: State)
    requires AgreeFrom(r1, r2, st.used)
    ensures Step(pick, r1, d, st) == Step(pick, r2, d, st)
  {
    assert r1(st.used) == r2(st.used);
    assert r1(st.used + 1) == r2(st.used + 1);
  }

  lemma RunFromStep(pick: Picker, rng: Rng, dates: seq<DateInfo>, i: int, st: State, row: Row,
                    next: State)
    requires 0 <= i < |dates|
    requires Step(pick, rng, dates[i], st) == Filled(row, next)
    ensures RunFrom(pick, rng, dates, i, st)
             == Prepend([row], RunFrom(pick, rng, dates, i + 1, next))
  {
  }

  /** A filled date draws at least one value. */
  lemma StepDraws(pick: Picker, rng: Rng, d: DateInfo, st: State)
    ensures var res := Step(pick, rng, d, st);
            res.Filled? ==> res.next.used > st.used
  {
  }

  /** The rest of a run reads only the random values from its position on. */
  lemma {:induction false} RunFromAgrees(pick: Picker, r1: Rng, r2: Rng, dates: seq<DateInfo>,
                                         i: int, st: State)
    requires 0 <= i <= |dates| && AgreeFrom(r1, r2, st.used)
    ensures RunFrom(pick, r1, dates, i, st) == RunFrom(pick, r2, dates, i, st)
    decreases |dates| - i
  {
    if i < |dates| {
      StepAgrees(pick, r1, r2, dates[i], st);
      var step := Step(pick, r1, dates[i], st);
      if step.Filled? {
        StepDraws(pick, r1, dates[i], st);
        RunFromAgrees(pick, r1, r2, dates, i + 1, step.next);
        RunFromStep(pick, r1, dates, i, st, step.row, step.next);
        RunFromStep(pick, r2, dates, i, st, step.row, step.next);
      }
    }
  }

  /** `rest`, with the values that make date `d` come out as `row` put at
      calls `base` and on. */
  ghost function RowRng(ledger: seq<LedgerRow>, req: Vacation.Requests, pick: Picker, d: DateInfo,
                        c: Carry, row: Row, base: nat, rest: Rng): Rng
    requires CompletePicker(ledger, req, pick) && RowOk(ledger, req, d, c, row)
  {
    var nightAt := if row.day.Some? then base + 1 else base;
    var withNight := Override(rest, nightAt,
                              PickDraw(ledger, req, pick, AfterDay(c, row.day), d.dayOfMonth,
                                       row.night));
    if row.day.Some? then Override(withNight, base,
                                   PickDraw(ledger, req, pick, c, d.dayOfMonth, row.day.value))
    else withNight
  }

  lemma RowRngReplays(ledger: seq<LedgerRow>, req: Vacation.Requests, pick: Picker, d: DateInfo,
                      c: Carry, row: Row, base: nat, rest: Rng)
    requires CompletePicker(ledger, req, pick) && RowOk(ledger, req, d, c, row)
    ensures Step(pick, RowRng(ledger, req, pick, d, c, row, base, rest), d, State(c, base))
            == Filled(row, State(Advance(c, row), base + DrawsFor(d)))
    ensures AgreeFrom(RowRng(ledger, req, pick, d, c, row, base, rest), rest, base + DrawsFor(d))
  {
    var rng := RowRng(ledger, req, pick, d, c, row, base, rest);
    var night := PickDraw(ledger, req, pick, AfterDay(c, row.day), d.dayOfMonth, row.night);
    if row.day.Some? {
      var day := PickDraw(ledger, req, pick, c, d.dayOfMonth, row.day.value);
      assert rng(base) == day;
      assert rng(base + 1) == night;
      assert c.(day := row.day.value) == AfterDay(c, row.day);
    } else {
      assert rng(base) == night;
    }
  }

  /** Under a fitting failing date, the step stops with that error. */
  lemma StepFailReplay(ledger: seq<LedgerRow>, req: Vacation.Requests, pick: Picker, rng: Rng,
                       d: DateInfo, c: Carry,
                       role: Role, partialDay: Option<Name>, base: nat)
    requires SoundPicker(ledger, req, pick) && CompletePicker(ledger, req, pick)
    requires FailsAt(ledger, req, d, c, role, partialDay)
    requires role == NightDuty && partialDay.Some? ==>
             rng(base) == PickDraw(ledger, req, pick, c, d.dayOfMonth, partialDay.value)
    ensures Step(pick, rng, d, State(c, base)) == NoCandidate(role, partialDay)
  {
    var u := rng(base);
    if role == NightDuty && partialDay.Some? {
      var c1 := AfterDay(c, partialDay);
      assert c.(day := partialDay.value) == c1;
      assert pick(c1, d.dayOfMonth, rng(base + 1)).None? <==>
             NoneEligible(ledger, c1, d.dayOfMonth, req);
    } else {
      assert pick(c, d.dayOfMonth, u).None? <==> NoneEligible(ledger, c, d.dayOfMonth, req);
    }
  }

  lemma PrependTwice(a: seq<Row>, b: seq<Row>, o: Outcome)
    ensures Prepend(a, Prepend(b, o)) == Prepend(a + b, o)
  {
    match o
    case Completed(rows, c) => assert a + (b + rows) == (a + b) + rows;
    case Unfilled(rows, role, partialDay) => assert a + (b + rows) == (a + b) + rows;
  }

  lemma RunFromEnd(pick: Picker, rng: Rng, dates: seq<DateInfo>, i: int, st: State)
    requires 0 <= i <= |dates|
    ensures Prepend([], RunFrom(pick, rng, dates, i, st)) == RunFrom(pick, rng, dates, i, st)
  {
    match RunFrom(pick, rng, dates, i, st)
    case Completed(r, _) => assert [] + r == r;
    case Unfilled(r, _, _) => assert [] + r == r;
  }

  /** Where the loop stands after rows `rows` for dates `i`, ...: the
      carry-over they leave and the random values they consumed. */
  function After(dates: seq<DateInfo>, i: int, c: Carry, rows: seq<Row>, base: nat): State
    requires 0 <= i && i + |rows| <= |dates|
  {
    State(CarryBefore(c, rows, |rows|), base + DrawCount(dates, i, |rows|))
  }

  /** Where the loop stands after a first row and the rows that follow it. */
  lemma AfterCons(dates: seq<DateInfo>, i: int, c: Carry, rows: seq<Row>, base: nat)
    requires 0 <= i && i + |rows| <= |dates| && |rows| > 0
    ensures After(dates, i + 1, Advance(c, rows[0]), rows[1..], base + DrawsFor(dates[i]))
             == After(dates, i, c, rows, base)
  {
  }

  /** One date in front of rows already replayed: `rng` fills date `i`
      with the first row and then agrees with `r1`, which replays the rest
      and reaches `later`, what the loop does once past all of `rows`. */
  lemma ReplayStep(pick: Picker, dates: seq<DateInfo>, i: int, c: Carry, rows: seq<Row>,
                   base: nat, rest: Rng, rng: Rng, r1: Rng, next: State, used: nat, later: Outcome)
    requires 0 <= i && i + |rows| <= |dates| && |rows| > 0
    requires Step(pick, rng, dates[i], State(c, base)) == Filled(rows[0], next)
    requires AgreeFrom(rng, r1, next.used) && next.used <= used
    requires AgreeFrom(r1, rest, used)
    requires RunFrom(pick, r1, dates, i + 1, next) == Prepend(rows[1..], later)
    ensures AgreeFrom(rng, rest, used)
    ensures RunFrom(pick, rng, dates, i, State(c, base)) == Prepend(rows, later)
  {
    var row := rows[0];
    var tail := rows[1..];
    RunFromAgrees(pick, rng, r1, dates, i + 1, next);
    RunFromStep(pick, rng, dates, i, State(c, base), row, next);
    PrependTwice([row], tail, later);
    assert [row] + tail == rows;
    forall k: nat | used <= k
      ensures rng(k) == rest(k)
    {
      assert rng(k) == r1(k);
    }
  }

  /** The values that fill date `i` with the first row, put in front of
      values `r1` that replay the rows after it. */
  lemma ReplayCons(ledger: seq<LedgerRow>, req: Vacation.Requests, pick: Picker,
                   dates: seq<DateInfo>, i: int, c: Carry, rows: seq<Row>,
                   base: nat, rest: Rng, r1: Rng, later: Outcome, used: nat)
    returns (rng: Rng)
    requires CompletePicker(ledger, req, pick)
    requires 0 <= i && i + |rows| <= |dates| && |rows| > 0
    requires RowOk(ledger, req, dates[i], c, rows[0])
    requires base + DrawsFor(dates[i]) <= used && AgreeFrom(r1, rest, used)
    requires RunFrom(pick, r1, dates, i + 1, State(Advance(c, rows[0]), base + DrawsFor(dates[i])))
              == Prepend(rows[1..], later)
    ensures AgreeFrom(rng, rest, used)
    ensures RunFrom(pick, rng, dates, i, State(c, base)) == Prepend(rows, later)
  {
    rng := RowRng(ledger, req, pick, dates[i], c, rows[0], base, r1);
    RowRngReplays(ledger, req, pick, dates[i], c, rows[0], base, r1);
    ReplayStep(pick, dates, i, c, rows, base, rest, rng, r1,
               State(Advance(c, rows[0]), base + DrawsFor(dates[i])), used, later);
  }

  /** Rows the loop can write are what it writes under some random values,
      whatever the values after them are: `rng` is `rest` with the values
      that replay `rows` put in front. The run then stands at date `end`
      in state `after`. */
  lemma {:induction false} ReplayRows(ledger: seq<LedgerRow>, req: Vacation.Requests, pick: Picker,
                                      dates: seq<DateInfo>, i: int, c: Carry,
                                      rows: seq<Row>, base: nat, rest: Rng, end: int, after: State)
    returns (rng: Rng)
    requires CompletePicker(ledger, req, pick)
    requires RowsOkFrom(ledger, req, dates, i, c, rows)
    requires end == i + |rows| && after == After(dates, i, c, rows, base)
    ensures AgreeFrom(rng, rest, after.used)
    ensures RunFrom(pick, rng, dates, i, State(c, base))
             == Prepend(rows, RunFrom(pick, rest, dates, end, after))
    decreases |rows|
  {
    if |rows| == 0 {
      RunFromEnd(pick, rest, dates, i, State(c, base));
      rng := rest;
    } else {
      var mid := base + DrawsFor(dates[i]);
      var c1 := Advance(c, rows[0]);
      RowsOkHead(ledger, req, dates, i, c, rows);
      AfterCons(dates, i, c, rows, base);
      var r1 := ReplayRows(ledger, req, pick, dates, i + 1, c1, rows[1..], mid, rest, end, after);
      rng := ReplayCons(ledger, req, pick, dates, i, c, rows, base, rest, r1,
                        RunFrom(pick, rest, dates, end, after), after.used);
    }
  }

  /** Every month of rows the loop can write is the outcome of some run. */
  lemma RunComplete(ledger: seq<LedgerRow>, req: Vacation.Requests, pick: Picker,
                    dates: seq<DateInfo>, seed: Carry, rows: seq<Row>)
    requires CompletePicker(ledger, req, pick)
    requires Conforms(ledger, req, dates, seed, rows)
    ensures exists rng: Rng :: Run(pick, rng, dates, seed)
             == Completed(rows, CarryBefore(seed, rows, |rows|))
  {
    var rest: Rng := (k: nat) => 0.0;
    var after := After(dates, 0, seed, rows, 0);
    var rng := ReplayRows(ledger, req, pick, dates, 0, seed, rows, 0, rest, |rows|, after);
    var done := RunFrom(pick, rest, dates, |rows|, after);
    assert done == Completed([], after.carry);
    assert rows + [] == rows;
    assert Run(pick, rng, dates, seed) == Prepend(rows, done);
  }

  /** Every stop at a date whose slot nobody can take, after rows the loop
      can write, is the outcome of some run. */
  lemma RunCompleteUnfilled(ledger: seq<LedgerRow>, req: Vacation.Requests, pick: Picker,
                            dates: seq<DateInfo>, seed: Carry,
                            rows: seq<Row>, role: Role, partialDay: Option<Name>)
    requires SoundPicker(ledger, req, pick) && CompletePicker(ledger, req, pick)
    requires RowsOkFrom(ledger, req, dates, 0, seed, rows) && |rows| < |dates|
    requires FailsAt(ledger, req, dates[|rows|], CarryBefore(seed, rows, |rows|), role, partialDay)
    ensures exists rng: Rng :: Run(pick, rng, dates, seed) == Unfilled(rows, role, partialDay)
  {
    var after := After(dates, 0, seed, rows, 0);
    var c := after.carry;
    var d := dates[|rows|];
    var zero: Rng := (k: nat) => 0.0;
    var rest := if role == NightDuty && partialDay.Some?
                then Override(zero, after.used,
                              PickDraw(ledger, req, pick, c, d.dayOfMonth, partialDay.value))
                else zero;
    StepFailReplay(ledger, req, pick, rest, d, c, role, partialDay, after.used);
    var done := RunFrom(pick, rest, dates, |rows|, after);
    assert done == Unfilled([], role, partialDay);
    var rng := ReplayRows(ledger, req, pick, dates, 0, seed, rows, 0, rest, |rows|, after);
    assert rows + [] == rows;
    assert Run(pick, rng, dates, seed) == Prepend(rows, done);
  }
}

=== FILE: rules.dfy ===
/** What every run of rows the loop can write guarantees, date by date:
    who is excluded from which slot, vacation, membership and fairness. The
    rows are a whole month or the dates written before a "no suitable
    member" error, which stay on the sheet. The carry-over in force before a
    date is restated as the latest day-duty and night-duty holders written
    so far. */
module Rules {
  import opened Wrappers
  import opened Staff
  import opened Selection
  import opened Roster
  import Vacation

  /** The night-duty holder of the latest date before `t`, or the seed's. */
  function LatestNight(seed: Carry, rows: seq<Row>, t: int): Name
    requires 0 <= t <= |rows|
  {
    if t == 0 then seed.night else rows[t - 1].night
  }

  /** The day-duty holder of the latest date before `t` that had one, or
      the seed's when no such date exists. */
  function LatestDay(seed: Carry, rows: seq<Row>, t: int): Name
    requires 0 <= t <= |rows|
    decreases t
  {
    if t == 0 then seed.day
    else if rows[t - 1].day.Some? then rows[t - 1].day.value
    else LatestDay(seed, rows, t - 1)
  }

  /** The carry-over before row `t + 1` is the one before row `t` moved on
      by row `t`. */
  lemma {:induction false} CarryBeforeStep(c: Carry, rows: seq<Row>, t: int)
    requires 0 <= t < |rows|
    ensures CarryBefore(c, rows, t + 1) == Advance(CarryBefore(c, rows, t), rows[t])
    decreases t
  {
    if t > 0 {
      CarryBeforeStep(Advance(c, rows[0]), rows[1..], t - 1);
      assert rows[1..][t - 1] == rows[t];
    }
  }

  /** `previousDayDuty` before a date holds the latest night-duty holder and
      the latest day-duty holder, however many dates without a day slot
      came in between. */
  lemma {:induction false} CarryIsLatestHolders(seed: Carry, rows: seq<Row>, t: int)
    requires 0 <= t <= |rows|
    ensures CarryBefore(seed, rows, t)
             == Carry(LatestDay(seed, rows, t), LatestNight(seed, rows, t))
    decreases t
  {
    if t > 0 {
      CarryIsLatestHolders(seed, rows, t - 1);
      CarryBeforeStep(seed, rows, t - 1);
    }
  }

  /** Row `t` of rows the loop can write, with the carry-over it starts
      from. */
  lemma RowAt(ledger: seq<LedgerRow>, req: Vacation.Requests, dates: seq<DateInfo>, seed: Carry,
              rows: seq<Row>, t: int)
    requires RowsOkFrom(ledger, req, dates, 0, seed, rows) && 0 <= t < |rows|
    ensures RowOk(ledger, req, dates[t],
                  Carry(LatestDay(seed, rows, t), LatestNight(seed, rows, t)), rows[t])
  {
    RowsOkAt(ledger, req, dates, 0, seed, rows);
    assert dates[0 + t] == dates[t];
    CarryIsLatestHolders(seed, rows, t);
  }

  /** A possible result of selection is an eligible member of the roster. */
  lemma PickEligible(ledger: seq<LedgerRow>, c: Carry, dayOfMonth: int, req: Vacation.Requests,
                     name: Name)
    requires ValidPick(ledger, c, dayOfMonth, req, name)
    ensures Eligible(name, c, dayOfMonth, req)
    ensures name in Members(ledger)
  {
    var i :| 0 <= i < |ledger| && InTier(ledger, c, dayOfMonth, req, i) && ledger[i].name == name;
    assert Members(ledger)[i] == name;
  }

  /** Day duty is filled exactly on Sundays, Saturdays and holidays, never
      by the date's night-duty holder, and neither holder is on vacation or
      missing from the roster. */
  lemma SlotsOfDate(ledger: seq<LedgerRow>, req: Vacation.Requests, dates: seq<DateInfo>,
                    seed: Carry, rows: seq<Row>, t: int)
    requires RowsOkFrom(ledger, req, dates, 0, seed, rows) && 0 <= t < |rows|
    ensures rows[t].day.Some? <==> HasDaySlot(dates[t])
    ensures rows[t].day.Some? ==> rows[t].day.value != rows[t].night
    ensures !Vacation.OnVacation(rows[t].night, dates[t].dayOfMonth, req) &&
            rows[t].night in Members(ledger)
    ensures rows[t].day.Some? ==> !Vacation.OnVacation(rows[t].day.value, dates[t].dayOfMonth, req)
                                  && rows[t].day.value in Members(ledger)
  {
    var c := Carry(LatestDay(seed, rows, t), LatestNight(seed, rows, t));
    RowAt(ledger, req, dates, seed, rows, t);
    PickEligible(ledger, AfterDay(c, rows[t].day), dates[t].dayOfMonth, req, rows[t].night);
    if rows[t].day.Some? {
      PickEligible(ledger, c, dates[t].dayOfMonth, req, rows[t].day.value);
    }
  }

  /** Nobody holds night duty two dates running, nobody holding either duty
      in the carry-over takes day duty, and on a date without a day slot the
      night-duty holder is not the latest day-duty holder, however far back
      that one was written. */
  lemma NoRepeatOfCarry(ledger: seq<LedgerRow>, req: Vacation.Requests, dates: seq<DateInfo>,
                        seed: Carry, rows: seq<Row>, t: int)
    requires RowsOkFrom(ledger, req, dates, 0, seed, rows) && 0 <= t < |rows|
    ensures rows[t].night != LatestNight(seed, rows, t)
    ensures rows[t].day.Some? ==>
              (rows[t].day.value != LatestDay(seed, rows, t)
               && rows[t].day.value != LatestNight(seed, rows, t))
    ensures rows[t].day.None? ==> rows[t].night != LatestDay(seed, rows, t)
  {
    var c := Carry(LatestDay(seed, rows, t), LatestNight(seed, rows, t));
    RowAt(ledger, req, dates, seed, rows, t);
    PickEligible(ledger, AfterDay(c, rows[t].day), dates[t].dayOfMonth, req, rows[t].night);
    if rows[t].day.Some? {
      PickEligible(ledger, c, dates[t].dayOfMonth, req, rows[t].day.value);
    }
  }

  /** Some row of the roster carries `name` with the roster's smallest
      count. */
  predicate HasMinCount(ledger: seq<LedgerRow>, name: Name) {
    exists i :: 0 <= i < |ledger| && ledger[i].name == name &&
      CountOf(ledger, i) == MinCount(ledger)
  }

  /** A possible result of selection has the smallest count whenever an
      eligible member with the smallest count exists. */
  lemma PickFair(ledger: seq<LedgerRow>, c: Carry, dayOfMonth: int, req: Vacation.Requests,
                 name: Name)
    requires ValidPick(ledger, c, dayOfMonth, req, name)
    ensures FairAvailable(ledger, c, dayOfMonth, req) ==> HasMinCount(ledger, name)
  {
    var i :| 0 <= i < |ledger| && InTier(ledger, c, dayOfMonth, req, i) && ledger[i].name == name;
  }

  /** Every pick of rows the loop can write goes to a member of smallest
      count whenever one of those was eligible for that slot. */
  lemma FairPicks(ledger: seq<LedgerRow>, req: Vacation.Requests, dates: seq<DateInfo>,
                  seed: Carry, rows: seq<Row>, t: int)
    requires RowsOkFrom(ledger, req, dates, 0, seed, rows) && 0 <= t < |rows|
    ensures var c := Carry(LatestDay(seed, rows, t), LatestNight(seed, rows, t));
            (rows[t].day.Some? && FairAvailable(ledger, c, dates[t].dayOfMonth, req)) ==>
              HasMinCount(ledger, rows[t].day.value)
    ensures var c := Carry(LatestDay(seed, rows, t), LatestNight(seed, rows, t));
            FairAvailable(ledger, AfterDay(c, rows[t].day), dates[t].dayOfMonth, req) ==>
              HasMinCount(ledger, rows[t].night)
  {
    var c := Carry(LatestDay(seed, rows, t), LatestNight(seed, rows, t));
    RowAt(ledger, req, dates, seed, rows, t);
    PickFair(ledger, AfterDay(c, rows[t].day), dates[t].dayOfMonth, req, rows[t].night);
    if rows[t].day.Some? {
      PickFair(ledger, c, dates[t].dayOfMonth, req, rows[t].day.value);
    }
  }
}

=== FILE: selection.dfy ===
/** Candidate selection (`getNextDutyIndex`): which member takes the next
    duty slot. A member is eligible when they hold neither of the duties
    being carried over and are not on vacation that day; among the eligible,
    those with the smallest duty count of the whole roster go first (tier
    one), and when none of them is eligible every eligible member is a
    candidate (tier two). One candidate is drawn at random; -1 means there
    is none. */
module Selection {
  import opened Wrappers
  import opened Staff
  import Seqs
  import Vacation

  /** A value of `Math.random()`: a number in [0, 1). */
  type Draw = u: real | 0.0 <= u < 1.0

  /** One row of the duty-count sheet: the member in column A and their
      count in column B. The rows, in order, are the member list. */
  datatype LedgerRow = LedgerRow(name: Name, count: int)

  /** `previousDayDuty`: the latest day-duty and night-duty holders, whom
      the next pick must avoid. */
  datatype Carry = Carry(day: Name, night: Name)

  /** `memberList`: column A of the duty-count sheet. */
  function Members(ledger: seq<LedgerRow>): (names: seq<Name>)
    ensures |names| == |ledger|
    ensures forall i :: 0 <= i < |ledger| ==> names[i] == ledger[i].name
  {
    seq(|ledger|, i requires 0 <= i < |ledger| => ledger[i].name)
  }

  /** The count the source reads for member `i`: column B of row
      `memberList.indexOf(name) + 2`. */
  function CountOf(ledger: seq<LedgerRow>, i: int): int
    requires 0 <= i < |ledger|
  {
    var names := Members(ledger);
    assert names[i] == ledger[i].name;
    ledger[Seqs.IndexOf(names, ledger[i].name)].count
  }

  /** The row read is the first one carrying the member's name, so a member
      listed twice reads the first row's count both times. */
  lemma CountOfReadsFirstRow(ledger: seq<LedgerRow>, i: int)
    requires 0 <= i < |ledger|
    ensures exists j :: 0 <= j <= i && ledger[j].name == ledger[i].name
                        && CountOf(ledger, i) == ledger[j].count
                        && forall k :: 0 <= k < j ==> ledger[k].name != ledger[i].name
  {
    var names := Members(ledger);
    assert names[i] == ledger[i].name;
    var j := Seqs.IndexOf(names, ledger[i].name);
    assert forall k :: 0 <= k < j ==> names[..j][k] == names[k];
  }

  /** `counts`: the count read for each member, in roster order. */
  function Counts(ledger: seq<LedgerRow>): (counts: seq<int>)
    ensures |counts| == |ledger|
    ensures forall i :: 0 <= i < |ledger| ==> counts[i] == CountOf(ledger, i)
  {
    seq(|ledger|, i requires 0 <= i < |ledger| => CountOf(ledger, i))
  }

  /** `Math.min.apply(null, xs)`. */
  function MinOf(xs: seq<int>): (m: int)
    requires |xs| > 0
    ensures m in xs
    ensures forall k :: 0 <= k < |xs| ==> m <= xs[k]
  {
    if |xs| == 1 then xs[0]
    else
      var m := MinOf(xs[..|xs| - 1]);
      assert forall k :: 0 <= k < |xs| - 1 ==> xs[..|xs| - 1][k] == xs[k];
      if xs[|xs| - 1] < m then xs[|xs| - 1] else m
  }

  /** The smallest count over the whole roster, eligible or not. */
  function MinCount(ledger: seq<LedgerRow>): int
    requires |ledger| > 0
  {
    MinOf(Counts(ledger))
  }

  /** Some member reads the minimum count and no member reads less. */
  lemma MinCountIsSmallest(ledger: seq<LedgerRow>)
    requires |ledger| > 0
    ensures exists i :: 0 <= i < |ledger| && CountOf(ledger, i) == MinCount(ledger)
    ensures forall i :: 0 <= i < |ledger| ==> MinCount(ledger) <= CountOf(ledger, i)
  {
    var counts := Counts(ledger);
    var k :| 0 <= k < |counts| && counts[k] == MinOf(counts);
    assert CountOf(ledger, k) == MinCount(ledger);
  }

  /** The hard constraints of both loops of `getNextDutyIndex`. */
  predicate Eligible(name: Name, carry: Carry, dayOfMonth: int, req: Vacation.Requests) {
    && name != carry.day
    && name != carry.night
    && !Vacation.OnVacation(name, dayOfMonth, req)
  }

  /** The test member `i` must pass to be pushed: the first loop (`fair`)
      also asks for the minimum count, the second does not. */
  predicate Qualifies(ledger: seq<LedgerRow>, carry: Carry, dayOfMonth: int,
                      req: Vacation.Requests, fair: bool, i: int)
    requires 0 <= i < |ledger|
  {
    && Eligible(ledger[i].name, carry, dayOfMonth, req)
    && (fair ==> CountOf(ledger, i) == MinCount(ledger))
  }

  /** One loop of `getNextDutyIndex` over the first `n` members: the
      indices that qualify, in increasing order. */
  function Scan(ledger: seq<LedgerRow>, carry: Carry, dayOfMonth: int, req: Vacation.Requests,
                fair: bool, n: int): (cs: seq<int>)
    requires 0 <= n <= |ledger|
    ensures forall k :: 0 <= k < |cs| ==> 0 <= cs[k] < n
    ensures forall i :: 0 <= i < n ==>
            (i in cs <==> Qualifies(ledger, carry, dayOfMonth, req, fair, i))
    ensures forall k, l :: 0 <= k < l < |cs| ==> cs[k] < cs[l]
  {
    if n == 0 then []
    else
      var earlier := Scan(ledger, carry, dayOfMonth, req, fair, n - 1);
      if Qualifies(ledger, carry, dayOfMonth, req, fair, n - 1) then earlier + [n - 1] else earlier
  }

  /** Some eligible member has the roster's minimum count: tier one is not
      empty. */
  predicate FairAvailable(ledger: seq<LedgerRow>, carry: Carry, dayOfMonth: int,
                          req: Vacation.Requests) {
    exists i :: 0 <= i < |ledger| && Qualifies(ledger, carry, dayOfMonth, req, true, i)
  }

  /** The declarative candidate set: eligible, and of minimum count whenever
      some eligible member has the minimum count. */
  predicate InTier(ledger: seq<LedgerRow>, carry: Carry, dayOfMonth: int, req: Vacation.Requests,
                   i: int) {
    && 0 <= i < |ledger|
    && Qualifies(ledger, carry, dayOfMonth, req, FairAvailable(ledger, carry, dayOfMonth, req), i)
  }

  /** No member is eligible at all. */
  predicate NoneEligible(ledger: seq<LedgerRow>, carry: Carry, dayOfMonth: int,
                         req: Vacation.Requests) {
    forall i :: 0 <= i < |ledger| ==> !Eligible(ledger[i].name, carry, dayOfMonth, req)
  }

  /** `candidates`: tier one, or tier two when tier one is empty. */
  function Candidates(ledger: seq<LedgerRow>, carry: Carry, dayOfMonth: int,
                      req: Vacation.Requests): (cs: seq<int>)
    ensures forall k :: 0 <= k < |cs| ==> InTier(ledger, carry, dayOfMonth, req, cs[k])
    ensures forall i :: InTier(ledger, carry, dayOfMonth, req, i) ==> i in cs
    ensures |cs| == 0 <==> NoneEligible(ledger, carry, dayOfMonth, req)
  {
    var tierOne := Scan(ledger, carry, dayOfMonth, req, true, |ledger|);
    if |tierOne| > 0 then
      TierOneMeaning(ledger, carry, dayOfMonth, req);
      tierOne
    else
      TierTwoMeaning(ledger, carry, dayOfMonth, req);
      Scan(ledger, carry, dayOfMonth, req, false, |ledger|)
  }

  /** A non-empty first loop yields exactly the tier. */
  lemma TierOneMeaning(ledger: seq<LedgerRow>, carry: Carry, dayOfMonth: int,
                       req: Vacation.Requests)
    requires |Scan(ledger, carry, dayOfMonth, req, true, |ledger|)| > 0
    ensures var cs := Scan(ledger, carry, dayOfMonth, req, true, |ledger|);
            && (forall k :: 0 <= k < |cs| ==> InTier(ledger, carry, dayOfMonth, req, cs[k]))
            && (forall i :: InTier(ledger, carry, dayOfMonth, req, i) ==> i in cs)
            && !NoneEligible(ledger, carry, dayOfMonth, req)
  {
    var cs := Scan(ledger, carry, dayOfMonth, req, true, |ledger|);
    assert Qualifies(ledger, carry, dayOfMonth, req, true, cs[0]);
    assert FairAvailable(ledger, carry, dayOfMonth, req);
  }

  /** After an empty first loop, the second loop yields exactly the tier. */
  lemma TierTwoMeaning(ledger: seq<LedgerRow>, carry: Carry, dayOfMonth: int,
                       req: Vacation.Requests)
    requires |Scan(ledger, carry, dayOfMonth, req, true, |ledger|)| == 0
    ensures var cs := Scan(ledger, carry, dayOfMonth, req, false, |ledger|);
            && (forall k :: 0 <= k < |cs| ==> InTier(ledger, carry, dayOfMonth, req, cs[k]))
            && (forall i :: InTier(ledger, carry, dayOfMonth, req, i) ==> i in cs)
            && (|cs| == 0 <==> NoneEligible(ledger, carry, dayOfMonth, req))
  {
    var none := Scan(ledger, carry, dayOfMonth, req, true, |ledger|);
    var cs := Scan(ledger, carry, dayOfMonth, req, false, |ledger|);
    assert forall i :: 0 <= i < |ledger| ==> i !in none;
    assert !FairAvailable(ledger, carry, dayOfMonth, req);
    if |cs| > 0 {
      assert Qualifies(ledger, carry, dayOfMonth, req, false, cs[0]);
    } else {
      forall i | 0 <= i < |ledger|
        ensures !Eligible(ledger[i].name, carry, dayOfMonth, req)
      {
        assert i !in cs;
        assert !Qualifies(ledger, carry, dayOfMonth, req, false, i);
      }
    }
  }

  /** `Math.floor(u * n)`: the position a draw picks among `n` candidates. */
  function Choose(u: Draw, n: int): (k: int)
    requires n > 0
    ensures 0 <= k < n
  {
    assert 0.0 <= u * (n as real) < n as real;
    (u * (n as real)).Floor
  }

  /** `getNextDutyIndex`, with `u` the value `Math.random()` returns. */
  function NextDutyIndex(ledger: seq<LedgerRow>, carry: Carry, dayOfMonth: int,
                         req: Vacation.Requests, u: Draw): (r: int)
    ensures r == -1 <==> NoneEligible(ledger, carry, dayOfMonth, req)
    ensures r != -1 ==> 0 <= r < |ledger| && Eligible(ledger[r].name, carry, dayOfMonth, req)
    ensures r != -1 && FairAvailable(ledger, carry, dayOfMonth, req) ==>
            CountOf(ledger, r) == MinCount(ledger)
    ensures r != -1 ==> InTier(ledger, carry, dayOfMonth, req, r)
  {
    var cs := Candidates(ledger, carry, dayOfMonth, req);
    if |cs| == 0 then -1 else cs[Choose(u, |cs|)]
  }

  /** The draw that picks position `k` of `n`. */
  lemma ChooseHits(k: int, n: int)
    requires 0 <= k < n
    ensures 0.0 <= (k as real) / (n as real) < 1.0
    ensures Choose((k as real) / (n as real), n) == k
  {
    var u := (k as real) / (n as real);
    assert u * (n as real) == k as real;
  }

  /** The random tie-break can land on any candidate: every member of the
      tier is the result for some value of `Math.random()`. Together with
      the contract of NextDutyIndex this says the results are exactly the
      tier. */
  lemma {:induction false} EveryCandidateReachable(ledger: seq<LedgerRow>, carry: Carry,
                                                   dayOfMonth: int, req: Vacation.Requests, i: int)
    requires InTier(ledger, carry, dayOfMonth, req, i)
    ensures exists u: Draw :: NextDutyIndex(ledger, carry, dayOfMonth, req, u) == i
  {
    var cs := Candidates(ledger, carry, dayOfMonth, req);
    var k :| 0 <= k < |cs| && cs[k] == i;
    ChooseHits(k, |cs|);
    var u: Draw := (k as real) / (|cs| as real);
    assert NextDutyIndex(ledger, carry, dayOfMonth, req, u) == i;
  }

  /** Members listed once read their own row's count. */
  lemma CountOfDistinct(ledger: seq<LedgerRow>, i: int)
    requires 0 <= i < |ledger|
    requires forall j :: 0 <= j < i ==> ledger[j].name != ledger[i].name
    ensures CountOf(ledger, i) == ledger[i].count
  {
    CountOfReadsFirstRow(ledger, i);
  }

  /** Tier two only happens when tier one is empty: a pick with more than
      the minimum count means every member with the minimum count was
      excluded by the carried-over duties or a vacation. */
  lemma {:induction false} RelaxedOnlyWhenFairExcluded(ledger: seq<LedgerRow>, carry: Carry,
                                                       dayOfMonth: int, req: Vacation.Requests,
                                                       u: Draw, j: int)
    requires NextDutyIndex(ledger, carry, dayOfMonth, req, u) != -1
    requires CountOf(ledger, NextDutyIndex(ledger, carry, dayOfMonth, req, u)) != MinCount(ledger)
    requires 0 <= j < |ledger| && CountOf(ledger, j) == MinCount(ledger)
    ensures !Eligible(ledger[j].name, carry, dayOfMonth, req)
  {
    if Eligible(ledger[j].name, carry, dayOfMonth, req) {
      assert Qualifies(ledger, carry, dayOfMonth, req, true, j);
      assert FairAvailable(ledger, carry, dayOfMonth, req);
    }
  }
}

=== FILE: shift.dfy ===
/** `createShift` with its sheets read: the month typed into the creation
    sheet, the dates of the month sheet, the duty-count roster, the rows of
    the vacation-request sheet and the last row of the previous month's
    sheet. The month is checked by `getPreviousMonth`, the vacation index is
    built for it, and the per-day loop runs under `getNextDutyIndex`. */
module Shift {
  import opened Wrappers
  import opened Staff
  import opened Selection
  import opened Roster
  import Vacation
  import Months
  import Tokens

  /** How `createShift` ends: the month-format error `getPreviousMonth`
      throws, or the outcome of the per-day loop. */
  datatype ShiftResult = MonthFormatError | Ran(outcome: Outcome)

  /** `createShift` from the month check on, with the vacation index
      `getVacationRequests` builds from the range B:L. `seed` is columns C
      and D of the previous month's last row; `rng` stands for
      `Math.random()`. */
  function CreateShift(month: int, dates: seq<DateInfo>, ledger: seq<LedgerRow>,
                       vacationRows: seq<Vacation.RequestRow>,
                       seed: Carry, rng: Rng): (r: ShiftResult)
    ensures r.MonthFormatError? <==> !Months.IsMonth(month)
    ensures r.Ran? && r.outcome.Completed? ==> |r.outcome.rows| == |dates|
    ensures r.Ran? && r.outcome.Unfilled? ==> |r.outcome.rows| < |dates|
  {
    if Months.PreviousMonth(month).None? then MonthFormatError
    else Ran(Run(SelectionPicker(ledger, Vacation.BuildRequestsAsWritten(vacationRows, month)),
                 rng, dates, seed))
  }

  /** `createShift` with the vacation index read from all twelve month
      columns B:M, one per entry of `getMonthColumn`'s list. */
  function CreateShiftCorrected(month: int, dates: seq<DateInfo>, ledger: seq<LedgerRow>,
                                vacationRows: seq<Vacation.RequestRow>,
                                seed: Carry, rng: Rng): (r: ShiftResult)
    ensures r.MonthFormatError? <==> !Months.IsMonth(month)
    ensures r.Ran? && r.outcome.Completed? ==> |r.outcome.rows| == |dates|
    ensures r.Ran? && r.outcome.Unfilled? ==> |r.outcome.rows| < |dates|
  {
    if Months.PreviousMonth(month).None? then MonthFormatError
    else Ran(Run(SelectionPicker(ledger, Vacation.BuildRequests(vacationRows, month)), rng, dates,
                 seed))
  }

  /** The two differ in March only: for every other month they write the
      same rows under the same random values. */
  lemma CorrectedAgreesOutsideMarch(month: int, dates: seq<DateInfo>, ledger: seq<LedgerRow>,
                                    vacationRows: seq<Vacation.RequestRow>,
                                    seed: Carry, rng: Rng)
    requires month != 3
    ensures CreateShift(month, dates, ledger, vacationRows, seed, rng)
             == CreateShiftCorrected(month, dates, ledger, vacationRows, seed, rng)
  {
    Vacation.OtherMonthsUnaffected(vacationRows, month);
  }

  /** In March, `createShift` runs as if nobody had asked for a day off. */
  lemma MarchRunsWithoutRequests(dates: seq<DateInfo>, ledger: seq<LedgerRow>,
                                 vacationRows: seq<Vacation.RequestRow>,
                                 seed: Carry, rng: Rng)
    ensures CreateShift(3, dates, ledger, vacationRows, seed, rng)
             == Ran(Run(SelectionPicker(ledger, map[]), rng, dates, seed))
  {
    Vacation.MarchIgnoredAsWritten(vacationRows);
  }

  /** Every outcome of `createShift` for a valid month is a month of rows
      the loop can write under the index built from B:L, ending on the
      carry-over of its last row, or such rows followed by a slot that no
      member could take. */
  lemma CreateShiftSound(month: int, dates: seq<DateInfo>, ledger: seq<LedgerRow>,
                         vacationRows: seq<Vacation.RequestRow>,
                         seed: Carry, rng: Rng)
    ensures var r := CreateShift(month, dates, ledger, vacationRows, seed, rng);
            r.Ran? ==>
              SoundFrom(ledger, Vacation.BuildRequestsAsWritten(vacationRows, month), dates, 0,
                        seed, r.outcome)
  {
    var req := Vacation.BuildRequestsAsWritten(vacationRows, month);
    SelectionPickerFaithful(ledger, req);
    RunFromSound(ledger, req, SelectionPicker(ledger, req), rng, dates, 0, State(seed, 0));
  }

  /** For a valid month, every month of rows the loop can write under the
      index built from B:L is what `createShift` writes for some values of
      `Math.random()`. */
  lemma CreateShiftComplete(month: int, dates: seq<DateInfo>, ledger: seq<LedgerRow>,
                            vacationRows: seq<Vacation.RequestRow>,
                            seed: Carry, rows: seq<Row>)
    requires Months.IsMonth(month)
    requires Conforms(ledger, Vacation.BuildRequestsAsWritten(vacationRows, month), dates, seed,
                      rows)
    ensures exists rng: Rng :: CreateShift(month, dates, ledger, vacationRows, seed, rng)
             == Ran(Completed(rows, CarryBefore(seed, rows, |rows|)))
  {
    var req := Vacation.BuildRequestsAsWritten(vacationRows, month);
    SelectionPickerFaithful(ledger, req);
    var pick := SelectionPicker(ledger, req);
    RunComplete(ledger, req, pick, dates, seed, rows);
    var rng: Rng :| Run(pick, rng, dates, seed) == Completed(rows, CarryBefore(seed, rows, |rows|));
    assert CreateShift(month, dates, ledger, vacationRows, seed, rng)
            == Ran(Run(pick, rng, dates, seed));
  }

  /** For a valid month, every stop at a slot that no member can take,
      after rows the loop can write, is an outcome of `createShift`. */
  lemma CreateShiftCompleteUnfilled(month: int, dates: seq<DateInfo>, ledger: seq<LedgerRow>,
                                    vacationRows: seq<Vacation.RequestRow>,
                                    seed: Carry, rows: seq<Row>, role: Role,
                                    partialDay: Option<Name>)
    requires Months.IsMonth(month)
    requires RowsOkFrom(ledger, Vacation.BuildRequestsAsWritten(vacationRows, month), dates, 0,
                        seed, rows) && |rows| < |dates|
    requires FailsAt(ledger, Vacation.BuildRequestsAsWritten(vacationRows, month), dates[|rows|],
                     CarryBefore(seed, rows, |rows|), role, partialDay)
    ensures exists rng: Rng :: CreateShift(month, dates, ledger, vacationRows, seed, rng)
             == Ran(Unfilled(rows, role, partialDay))
  {
    var req := Vacation.BuildRequestsAsWritten(vacationRows, month);
    SelectionPickerFaithful(ledger, req);
    var pick := SelectionPicker(ledger, req);
    RunCompleteUnfilled(ledger, req, pick, dates, seed, rows, role, partialDay);
    var rng: Rng :| Run(pick, rng, dates, seed) == Unfilled(rows, role, partialDay);
    assert CreateShift(month, dates, ledger, vacationRows, seed, rng)
            == Ran(Run(pick, rng, dates, seed));
  }

  /** The corrected `createShift` is sound under the twelve-column index:
      no pick of a completed month goes to a member whose March cell, or
      any other month's cell, names that day. */
  lemma CreateShiftCorrectedSound(month: int, dates: seq<DateInfo>, ledger: seq<LedgerRow>,
                                  vacationRows: seq<Vacation.RequestRow>,
                                  seed: Carry, rng: Rng)
    ensures var r := CreateShiftCorrected(month, dates, ledger, vacationRows, seed, rng);
            r.Ran? ==>
              SoundFrom(ledger, Vacation.BuildRequests(vacationRows, month), dates, 0, seed,
                        r.outcome)
  {
    var req := Vacation.BuildRequests(vacationRows, month);
    SelectionPickerFaithful(ledger, req);
    RunFromSound(ledger, req, SelectionPicker(ledger, req), rng, dates, 0, State(seed, 0));
  }

  /** One member, "a", whose March cell (the twelfth month column) is "5". */
  const MarchSheet: seq<Vacation.RequestRow> := [Vacation.RequestRow("a",
      ["", "", "", "", "", "", "", "", "", "", "", "5"])]

  /** Read from all twelve month columns, the sheet puts "a" on vacation
      on the 5th of March. */
  lemma MarchSheetNamesFifth()
    ensures Vacation.OnVacation("a", 5, Vacation.BuildRequests(MarchSheet, 3))
  {
    var five := Tokens.Show(5);
    assert five == "5";
    Tokens.ShowIsWord(5);
    Tokens.SplitPrefixWord(five, []);
    assert five + [] == five;
    Tokens.ParseIntShow(5, []);
    assert Vacation.ParseCell(five)[0] == Some(5);
    assert Months.MonthColumn(3) == 11;
    Vacation.CollectValues(MarchSheet, 11, Vacation.FiscalWidth, 0);
  }

  /** A month of one date without a day slot is the night pick alone: a
      row holding it, or the night-duty error. */
  lemma OneWeekdayRun(pick: Picker, rng: Rng, d: DateInfo, seed: Carry)
    requires !HasDaySlot(d)
    ensures pick(seed, d.dayOfMonth, rng(0)).None? ==>
            Run(pick, rng, [d], seed) == Unfilled([], NightDuty, None)
    ensures pick(seed, d.dayOfMonth, rng(0)).Some? ==>
              var name := pick(seed, d.dayOfMonth, rng(0)).value;
              Run(pick, rng, [d], seed) == Completed([Row(None, name)], seed.(night := name))
  {
    var name := pick(seed, d.dayOfMonth, rng(0));
    if name.Some? {
      var next := State(seed.(night := name.value), 1);
      assert RunFrom(pick, rng, [d], 1, next) == Completed([], next.carry);
      assert [Row(None, name.value)] + [] == [Row(None, name.value)];
    }
  }

  /** With no requests, "a" is the only pick for the 5th. */
  lemma LoneMemberPicked(u: Draw)
    ensures Pick([LedgerRow("a", 0)], map[], Carry("x", "y"), 5, u) == Some("a")
  {
    var ledger := [LedgerRow("a", 0)];
    assert Eligible(ledger[0].name, Carry("x", "y"), 5, map[]);
    assert NextDutyIndex(ledger, Carry("x", "y"), 5, map[], u) == 0;
  }

  /** As written, "a" takes night duty on Tuesday the 5th of March. */
  lemma MarchWrittenFillsFifth(rng: Rng)
    ensures CreateShift(3, [DateInfo(5, 2, false)], [LedgerRow("a", 0)], MarchSheet,
                        Carry("x", "y"), rng)
            == Ran(Completed([Row(None, "a")], Carry("x", "a")))
  {
    var ledger := [LedgerRow("a", 0)];
    var seed := Carry("x", "y");
    var pick := SelectionPicker(ledger, map[]);
    MarchRunsWithoutRequests([DateInfo(5, 2, false)], ledger, MarchSheet, seed, rng);
    LoneMemberPicked(rng(0));
    assert pick(seed, 5, rng(0)) == Some("a");
    OneWeekdayRun(pick, rng, DateInfo(5, 2, false), seed);
  }

  /** With "a" away on the 5th, nobody may take it. */
  lemma LoneMemberAway(req: Vacation.Requests, u: Draw)
    requires Vacation.OnVacation("a", 5, req)
    ensures Pick([LedgerRow("a", 0)], req, Carry("x", "y"), 5, u) == None
  {
    assert NoneEligible([LedgerRow("a", 0)], Carry("x", "y"), 5, req);
  }

  /** Corrected, the request leaves nobody for the night slot of the 5th. */
  lemma MarchCorrectedLeavesFifthOpen(rng: Rng)
    ensures CreateShiftCorrected(3, [DateInfo(5, 2, false)], [LedgerRow("a", 0)], MarchSheet,
                                 Carry("x", "y"), rng)
            == Ran(Unfilled([], NightDuty, None))
  {
    var ledger := [LedgerRow("a", 0)];
    var seed := Carry("x", "y");
    var req := Vacation.BuildRequests(MarchSheet, 3);
    var pick := SelectionPicker(ledger, req);
    MarchSheetNamesFifth();
    LoneMemberAway(req, rng(0));
    assert pick(seed, 5, rng(0)) == None;
    OneWeekdayRun(pick, rng, DateInfo(5, 2, false), seed);
    assert CreateShiftCorrected(3, [DateInfo(5, 2, false)], ledger, MarchSheet, seed, rng)
            == Ran(Run(pick, rng, [DateInfo(5, 2, false)], seed));
  }

  /** As written, "a" takes night duty on Tuesday the 5th of March although
      their request names that day; read from twelve columns, the request
      leaves nobody for the slot. */
  lemma MarchRequestOverlooked(rng: Rng)
    ensures CreateShift(3, [DateInfo(5, 2, false)], [LedgerRow("a", 0)], MarchSheet,
                        Carry("x", "y"), rng)
            == Ran(Completed([Row(None, "a")], Carry("x", "a")))
    ensures CreateShiftCorrected(3, [DateInfo(5, 2, false)], [LedgerRow("a", 0)], MarchSheet,
                                 Carry("x", "y"), rng)
            == Ran(Unfilled([], NightDuty, None))
  {
    MarchWrittenFillsFifth(rng);
    MarchCorrectedLeavesFifthOpen(rng);
  }

  /** Three members of equal count. */
  const TrioLedger: seq<LedgerRow> := [LedgerRow("a", 0), LedgerRow("b", 0), LedgerRow("c", 0)]

  /** Saturday the 6th and Sunday the 7th. */
  const Weekend: seq<DateInfo> := [DateInfo(6, 6, false), DateInfo(7, 0, false)]

  /** Day duty "a" and night duty "b" on Saturday; day duty "c" and night
      duty "a" on Sunday. */
  const WeekendRows: seq<Row> := [Row(Some("a"), "b"), Row(Some("c"), "a")]

  /** With every count equal and no vacation requests, any member outside
      the carry-over is a possible pick. */
  lemma EveryoneFair(ledger: seq<LedgerRow>, req: Vacation.Requests, c: Carry, dayOfMonth: int,
                     i: int)
    requires req == map[] && 0 <= i < |ledger|
    requires forall j :: 0 <= j < |ledger| ==> CountOf(ledger, j) == MinCount(ledger)
    requires ledger[i].name != c.day && ledger[i].name != c.night
    ensures ValidPick(ledger, c, dayOfMonth, req, ledger[i].name)
  {
    assert Qualifies(ledger, c, dayOfMonth, req, true, i);
    assert InTier(ledger, c, dayOfMonth, req, i);
  }

  lemma TrioEqualCounts()
    ensures forall j :: 0 <= j < |TrioLedger| ==> CountOf(TrioLedger, j) == MinCount(TrioLedger)
  {
    forall j | 0 <= j < 3
      ensures CountOf(TrioLedger, j) == 0
    {
      CountOfDistinct(TrioLedger, j);
    }
    MinCountIsSmallest(TrioLedger);
  }

  /** The weekend rows are rows the loop can write with no vacation
      requests, from a carry-over of two outsiders. */
  lemma WeekendConforms()
    ensures Conforms(TrioLedger, map[], Weekend, Carry("x", "y"), WeekendRows)
  {
    var req: Vacation.Requests := map[];
    TrioEqualCounts();
    var saturday := WeekendRows[0];
    var sunday := WeekendRows[1];
    EveryoneFair(TrioLedger, req, Carry("x", "y"), 6, 0);
    EveryoneFair(TrioLedger, req, Carry("a", "y"), 6, 1);
    assert RowOk(TrioLedger, req, Weekend[0], Carry("x", "y"), saturday);
    EveryoneFair(TrioLedger, req, Carry("a", "b"), 7, 2);
    EveryoneFair(TrioLedger, req, Carry("c", "b"), 7, 0);
    assert RowOk(TrioLedger, req, Weekend[1], Carry("a", "b"), sunday);
    assert RowsOkFrom(TrioLedger, req, Weekend, 2, Carry("c", "a"), []);
    RowsOkCons(TrioLedger, req, Weekend, 1, Carry("a", "b"), sunday, []);
    assert [sunday] + [] == WeekendRows[1..];
    RowsOkCons(TrioLedger, req, Weekend, 0, Carry("x", "y"), saturday, WeekendRows[1..]);
    assert [saturday] + WeekendRows[1..] == WeekendRows;
  }

  /** Saturday's day-duty holder may take Sunday's night duty: Sunday's
      day pick replaces that holder in the carry-over, and the night pick
      excludes only the carry-over as it then stands. So a member may hold
      duty on two consecutive dates. */
  lemma SundayNightMayRepeatSaturdayDay()
    ensures WeekendRows[1].night == WeekendRows[0].day.value
    ensures exists rng: Rng :: CreateShift(7, Weekend, TrioLedger, [], Carry("x", "y"), rng)
             == Ran(Completed(WeekendRows, Carry("c", "a")))
  {
    assert Vacation.BuildRequestsAsWritten([], 7) == map[];
    WeekendConforms();
    assert CarryBefore(Carry("x", "y"), WeekendRows, 2) == Carry("c", "a");
    CreateShiftComplete(7, Weekend, TrioLedger, [], Carry("x", "y"), WeekendRows);
  }
}

=== FILE: tokens.dfy ===
/** Tokenising a vacation-request cell: the JavaScript expression
    `cell.split(/[\s,、]+/).map(d => parseInt(d, 10))`. */
module Tokens {
  import opened Wrappers

  /** The characters JavaScript's `\s` matches (WhiteSpace and
      LineTerminator); `parseInt` skips the same set before a number. */
  predicate IsSpace(c: char) {
    || c == '\t' || c == '\n' || c == '\U{000B}' || c == '\U{000C}' || c == '\r'
    || c == ' ' || c == '\U{00A0}' || c == '\U{1680}'
    || ('\U{2000}' <= c <= '\U{200A}')
    || c == '\U{2028}' || c == '\U{2029}' || c == '\U{202F}' || c == '\U{205F}'
    || c == '\U{3000}' || c == '\U{FEFF}'
  }

  /** One character of the separator class `[\s,、]`; `、` is U+3001. */
  predicate IsDelimiter(c: char) {
    IsSpace(c) || c == ',' || c == '\U{3001}'
  }

  predicate DelimiterFree(s: string) {
    forall k :: 0 <= k < |s| ==> !IsDelimiter(s[k])
  }

  predicate AllDelimiters(s: string) {
    forall k :: 0 <= k < |s| ==> IsDelimiter(s[k])
  }

  /** `String.prototype.split` with the separator `/[\s,、]+/`: the pieces
      between maximal runs of separators, with an empty first piece when the
      text opens with a separator and an empty last piece when it ends with
      one. Defined a character at a time: a letter joins the first piece of
      what follows; a separator opens a new, empty piece unless the next
      character continues the same run of separators. */
  function Split(s: string): (ts: seq<string>)
    ensures |ts| > 0
    ensures forall k :: 0 <= k < |ts| ==> DelimiterFree(ts[k])
    ensures |s| > 0 && IsDelimiter(s[0]) ==> ts[0] == []
  {
    if |s| == 0 then [[]]
    else
      var ts := Split(s[1..]);
      if !IsDelimiter(s[0]) then [[s[0]] + ts[0]] + ts[1..]
      else if |s| > 1 && IsDelimiter(s[1]) then ts
      else [[]] + ts
  }

  /** The characters of `s` that are not separators, in order. */
  function Letters(s: string): (r: string)
    ensures DelimiterFree(r)
  {
    if |s| == 0 then []
    else (if IsDelimiter(s[0]) then [] else [s[0]]) + Letters(s[1..])
  }

  function Concat(ts: seq<string>): string {
    if |ts| == 0 then [] else ts[0] + Concat(ts[1..])
  }

  /** Each gap is a non-empty run of separators, such as ", " or "、". */
  predicate SeparatorRuns(seps: seq<string>) {
    forall k :: 0 <= k < |seps| ==> |seps[k]| > 0 && AllDelimiters(seps[k])
  }

  /** The pieces glued back together, `seps[k]` between piece `k` and
      piece `k + 1`. */
  function JoinRuns(ts: seq<string>, seps: seq<string>): string
    requires |ts| > 0 && |seps| == |ts| - 1
  {
    if |ts| == 1 then ts[0] else ts[0] + seps[0] + JoinRuns(ts[1..], seps[1..])
  }

  lemma ConcatCons(t: string, ts: seq<string>)
    ensures Concat([t] + ts) == t + Concat(ts)
  {
    assert ([t] + ts)[1..] == ts;
  }

  /** Splitting loses nothing but the separators: the pieces, concatenated,
      are exactly the non-separator characters of the cell, in order. */
  lemma {:induction false} SplitKeepsLetters(s: string)
    ensures Concat(Split(s)) == Letters(s)
    decreases |s|
  {
    if |s| > 0 {
      var ts := Split(s[1..]);
      SplitKeepsLetters(s[1..]);
      assert ts == [ts[0]] + ts[1..];
      ConcatCons(ts[0], ts[1..]);
      if !IsDelimiter(s[0]) {
        ConcatCons([s[0]] + ts[0], ts[1..]);
      } else if !(|s| > 1 && IsDelimiter(s[1])) {
        ConcatCons([], ts);
      }
    }
  }

  /** A piece without separators in front of a text becomes part of that
      text's first piece. */
  lemma {:induction false} SplitPrefixWord(w: string, t: string)
    requires DelimiterFree(w)
    ensures Split(w + t) == [w + Split(t)[0]] + Split(t)[1..]
    decreases |w|
  {
    if |w| > 0 {
      assert (w + t)[0] == w[0];
      assert (w + t)[1..] == w[1..] + t;
      SplitPrefixWord(w[1..], t);
      assert [w[0]] + (w[1..] + Split(t)[0]) == w + Split(t)[0];
    } else {
      assert w + t == t;
      assert w + Split(t)[0] == Split(t)[0];
      assert Split(t) == [Split(t)[0]] + Split(t)[1..];
    }
  }

  /** A run of separators in front of a text that does not open with one
      contributes exactly one empty piece. */
  lemma {:induction false} SplitPrefixGap(gap: string, t: string)
    requires |gap| > 0 && AllDelimiters(gap)
    requires |t| == 0 || !IsDelimiter(t[0])
    ensures Split(gap + t) == [[]] + Split(t)
    decreases |gap|
  {
    var s := gap + t;
    assert s[1..] == gap[1..] + t;
    if |gap| > 1 {
      SplitPrefixGap(gap[1..], t);
      assert s[1] == gap[1];
    } else {
      assert s[1..] == t;
    }
  }

  lemma {:induction false} JoinOpensWithFirst(ts: seq<string>, seps: seq<string>)
    requires |ts| > 0 && |seps| == |ts| - 1
    ensures ts[0] <= JoinRuns(ts, seps)
  {
    if |ts| > 1 {
      assert JoinRuns(ts, seps) == ts[0] + (seps[0] + JoinRuns(ts[1..], seps[1..]));
    }
  }

  /** Split inverts JoinRuns: non-empty pieces without separators, with any
      non-empty run of separators in each gap, split back into the same
      pieces. */
  lemma {:induction false} SplitJoin(ts: seq<string>, seps: seq<string>)
    requires |ts| > 0 && |seps| == |ts| - 1
    requires forall k :: 0 <= k < |ts| ==> |ts[k]| > 0 && DelimiterFree(ts[k])
    requires SeparatorRuns(seps)
    ensures Split(JoinRuns(ts, seps)) == ts
    decreases |ts|
  {
    var w := ts[0];
    if |ts| == 1 {
      SplitPrefixWord(w, []);
      assert w + [] == w;
    } else {
      var sep := seps[0];
      var rest := JoinRuns(ts[1..], seps[1..]);
      JoinOpensWithFirst(ts[1..], seps[1..]);
      assert rest[0] == ts[1][0];
      SplitJoin(ts[1..], seps[1..]);
      SplitPrefixGap(sep, rest);
      SplitPrefixWord(w, sep + rest);
      assert JoinRuns(ts, seps) == w + (sep + rest);
      assert w + [] == w;
      assert ts == [w] + ts[1..];
    }
  }

  /** A run of separators after a text that does not end with one
      contributes exactly one empty piece at the end. */
  lemma {:induction false} SplitSuffixGap(t: string, gap: string)
    requires |gap| > 0 && AllDelimiters(gap)
    requires |t| == 0 || !IsDelimiter(t[|t| - 1])
    ensures Split(t + gap) == Split(t) + [[]]
    decreases |t|
  {
    if |t| == 0 {
      assert t + gap == gap;
      SplitPrefixGap(gap, []);
      assert gap + [] == gap;
    } else {
      var s := t + gap;
      var u := t[1..];
      assert s[1..] == u + gap;
      SplitSuffixGap(u, gap);
      var ts := Split(u);
      if !IsDelimiter(t[0]) {
        assert Split(s) == [[t[0]] + (ts + [[]])[0]] + (ts + [[]])[1..];
        assert (ts + [[]])[1..] == ts[1..] + [[]];
      } else {
        assert |u| > 0 && s[1] == u[0];
      }
    }
  }

  /** Runs of separators around a text that neither opens nor ends with
      one add an empty piece at each padded end; either run may be absent. */
  lemma SplitPadded(lead: string, text: string, trail: string)
    requires AllDelimiters(lead) && AllDelimiters(trail)
    requires |text| > 0 && !IsDelimiter(text[0]) && !IsDelimiter(text[|text| - 1])
    ensures Split(lead + text + trail)
            == (if |lead| > 0 then [[]] else []) + Split(text) + (if |trail| > 0 then [[]] else [])
  {
    var middle := text + trail;
    if |trail| > 0 {
      SplitSuffixGap(text, trail);
    } else {
      assert middle == text;
    }
    assert middle[0] == text[0];
    assert lead + text + trail == lead + middle;
    if |lead| > 0 {
      SplitPrefixGap(lead, middle);
    } else {
      assert lead + middle == middle;
    }
  }

  // ---- parseInt(token, 10) ----

  predicate IsDigit(c: char) {
    '0' <= c <= '9'
  }

  function DigitValue(c: char): nat
    requires IsDigit(c)
  {
    (c as int) - ('0' as int)
  }

  function DigitChar(d: nat): (c: char)
    requires d < 10
    ensures IsDigit(c) && DigitValue(c) == d
  {
    (('0' as int) + d) as char
  }

  /** `s` without its leading white space. */
  function TrimStart(s: string): (t: string)
    ensures |t| <= |s| && t == s[|s| - |t|..]
  {
    if |s| > 0 && IsSpace(s[0]) then TrimStart(s[1..]) else s
  }

  /** The longest prefix of decimal digits. */
  function DigitPrefix(s: string): (ds: string)
    ensures ds <= s
    ensures forall k :: 0 <= k < |ds| ==> IsDigit(ds[k])
    ensures |ds| < |s| ==> !IsDigit(s[|ds|])
  {
    if |s| > 0 && IsDigit(s[0]) then [s[0]] + DigitPrefix(s[1..]) else []
  }

  /** The number a string of decimal digits denotes, most significant first. */
  function DigitsValue(ds: string): nat
    requires forall k :: 0 <= k < |ds| ==> IsDigit(ds[k])
  {
    if |ds| == 0 then 0
    else 10 * DigitsValue(ds[..|ds| - 1]) + DigitValue(ds[|ds| - 1])
  }

  /** The number the leading digits of `u` denote; `None` when `u` does not
      open with a digit. */
  function LeadingNumber(u: string): (r: Option<nat>)
    ensures r.None? <==> (|u| == 0 || !IsDigit(u[0]))
  {
    var ds := DigitPrefix(u);
    if |ds| == 0 then None else Some(DigitsValue(ds))
  }

  function Negate(r: Option<nat>): Option<int> {
    match r
    case None => None
    case Some(v) => Some(-(v as int))
  }

  function Widen(r: Option<nat>): Option<int> {
    match r
    case None => None
    case Some(v) => Some(v)
  }

  /** An optional sign, then the leading digits. */
  function SignedNumber(t: string): Option<int> {
    if |t| > 0 && t[0] == '-' then Negate(LeadingNumber(t[1..]))
    else if |t| > 0 && t[0] == '+' then Widen(LeadingNumber(t[1..]))
    else Widen(LeadingNumber(t))
  }

  /** `parseInt(s, 10)`: skip white space, take an optional sign, then the
      longest run of decimal digits; `None` is `NaN` (no digits at all). A
      "-0" reads as 0, which is not a day of any month, as `-0` is not. */
  function ParseInt(s: string): Option<int> {
    SignedNumber(TrimStart(s))
  }

  /** The decimal text of a natural number, as a sheet shows it. */
  function Show(n: nat): (s: string)
    ensures |s| > 0
    ensures forall k :: 0 <= k < |s| ==> IsDigit(s[k])
  {
    if n < 10 then [DigitChar(n)] else Show(n / 10) + [DigitChar(n % 10)]
  }

  /** A number's text holds no separator. */
  lemma ShowIsWord(n: nat)
    ensures DelimiterFree(Show(n))
  {
    var s := Show(n);
    forall k | 0 <= k < |s|
      ensures !IsDelimiter(s[k])
    {
      assert IsDigit(s[k]);
    }
  }

  lemma {:induction false} ShowValue(n: nat)
    ensures DigitsValue(Show(n)) == n
    decreases n
  {
    if n >= 10 {
      var s := Show(n);
      assert s[..|s| - 1] == Show(n / 10);
      ShowValue(n / 10);
    }
  }

  lemma {:induction false} DigitPrefixOfGlued(ds: string, rest: string)
    requires forall k :: 0 <= k < |ds| ==> IsDigit(ds[k])
    requires |rest| == 0 || !IsDigit(rest[0])
    ensures DigitPrefix(ds + rest) == ds
    decreases |ds|
  {
    if |ds| > 0 {
      assert (ds + rest)[1..] == ds[1..] + rest;
      DigitPrefixOfGlued(ds[1..], rest);
    } else {
      assert ds + rest == rest;
    }
  }

  lemma NothingToTrim(s: string)
    requires |s| > 0 && !IsSpace(s[0])
    ensures TrimStart(s) == s
  {
  }

  /** Text that opens with a number reads as that number. */
  lemma ParseIntLeadingNumber(s: string, n: nat)
    requires |s| > 0 && IsDigit(s[0]) && LeadingNumber(s) == Some(n)
    ensures ParseInt(s) == Some(n)
  {
    NothingToTrim(s);
  }

  /** The same text behind a minus sign reads as the negated number. */
  lemma ParseIntMinusLeadingNumber(s: string, n: nat)
    requires LeadingNumber(s) == Some(n)
    ensures ParseInt(['-'] + s) == Some(-(n as int))
  {
    var m := ['-'] + s;
    NothingToTrim(m);
    assert m[0] == '-' && m[1..] == s;
  }

  /** A run of digits followed by a non-digit reads as the run's value. */
  lemma LeadingNumberOfGlued(ds: string, rest: string, n: nat)
    requires |ds| > 0 && forall k :: 0 <= k < |ds| ==> IsDigit(ds[k])
    requires DigitsValue(ds) == n
    requires |rest| == 0 || !IsDigit(rest[0])
    ensures LeadingNumber(ds + rest) == Some(n)
  {
    DigitPrefixOfGlued(ds, rest);
  }

  /** `parseInt` reads back the number a sheet shows, with or without a minus
      sign, and ignores whatever trails it from the first non-digit on
      ("15日" reads as 15). */
  lemma {:induction false} ParseIntShow(n: nat, rest: string)
    requires |rest| == 0 || !IsDigit(rest[0])
    ensures ParseInt(Show(n) + rest) == Some(n)
    ensures ParseInt(['-'] + (Show(n) + rest)) == Some(-(n as int))
  {
    var t := Show(n) + rest;
    ShowValue(n);
    LeadingNumberOfGlued(Show(n), rest, n);
    assert t[0] == Show(n)[0];
    ParseIntLeadingNumber(t, n);
    ParseIntMinusLeadingNumber(t, n);
  }

  /** A token with no digit after its optional sign is `NaN`. */
  lemma NoDigitsIsNaN(s: string)
    requires |s| > 0 && !IsSpace(s[0]) && !IsDigit(s[0]) && s[0] != '-' && s[0] != '+'
    ensures ParseInt(s).None?
  {
  }
}

=== FILE: vacation.dfy ===
/** The vacation index (`getVacationRequests`, `isOnVacation`): for the
    target month, each member's requested days off, read from one text cell
    per member in the vacation-request sheet. */
module Vacation {
  import opened Wrappers
  import opened Staff
  import Tokens
  import Months

  /** Member name to the tokens of their request cell, each read by
      `parseInt`; `None` is a token that read as `NaN`. */
  type Requests = map<Name, seq<Option<int>>>

  /** One row of the vacation-request sheet: the name in column A and the
      month cells from column B on, in fiscal order (April first). */
  datatype RequestRow = RequestRow(name: Name, cells: seq<string>)

  /** Month columns the source reads: the range B:L, eleven of them. */
  const WrittenWidth: nat := 11

  /** Month columns of a fiscal year: B:M, twelve of them. */
  const FiscalWidth: nat := 12

  /** `vacationData[i][col]` for a range `width` columns wide: `None` is
      `undefined` (an index outside the range, -1 included); a blank cell in
      the range reads as the empty text. */
  function ReadCell(row: RequestRow, col: int, width: nat): (cell: Option<string>)
    ensures cell.Some? <==> 0 <= col < width
    ensures 0 <= col < |row.cells| && col < width ==> cell == Some(row.cells[col])
  {
    if 0 <= col < width then Some(if col < |row.cells| then row.cells[col] else [])
    else None
  }

  /** The truthiness test `if (requestDays)`: present and not empty. */
  predicate Requested(cell: Option<string>) {
    cell.Some? && |cell.value| > 0
  }

  /** `requestDays.split(/[\s,、]+/).map(d => parseInt(d, 10))`. */
  function ParseCell(text: string): (days: seq<Option<int>>)
    ensures |days| == |Tokens.Split(text)|
    ensures forall k :: 0 <= k < |days| ==> days[k] == Tokens.ParseInt(Tokens.Split(text)[k])
  {
    ParseTokens(Tokens.Split(text))
  }

  /** `.map(d => parseInt(d, 10))` over the pieces of a split. */
  function ParseTokens(tokens: seq<string>): (days: seq<Option<int>>)
    ensures |days| == |tokens|
    ensures forall k :: 0 <= k < |days| ==> days[k] == Tokens.ParseInt(tokens[k])
  {
    seq(|tokens|, k requires 0 <= k < |tokens| => Tokens.ParseInt(tokens[k]))
  }

  /** Mapping commutes with gluing pieces together. */
  lemma ParseTokensConcat(a: seq<string>, b: seq<string>)
    ensures ParseTokens(a + b) == ParseTokens(a) + ParseTokens(b)
  {
    var l := ParseTokens(a + b);
    var r := ParseTokens(a) + ParseTokens(b);
    forall k | 0 <= k < |l|
      ensures l[k] == r[k]
    {
      if k >= |a| {
        assert (a + b)[k] == b[k - |a|];
      }
    }
  }

  /** Row `i` is the last row of its member whose cell holds a request, so
      its entry is the one that survives `requests[name] = ...`. */
  predicate LastRequest(rows: seq<RequestRow>, i: int, col: int, width: nat)
    requires 0 <= i < |rows|
  {
    forall j :: i < j < |rows| && rows[j].name == rows[i].name ==>
      !Requested(ReadCell(rows[j], col, width))
  }

  /** The loop of `getVacationRequests`: rows in sheet order, each row with
      a request overwriting its member's entry. */
  function Collect(rows: seq<RequestRow>, col: int, width: nat): Requests
    decreases |rows|
  {
    if |rows| == 0 then map[]
    else
      var n := |rows| - 1;
      var cell := ReadCell(rows[n], col, width);
      if Requested(cell) then Collect(rows[..n], col, width)[rows[n].name := ParseCell(cell.value)]
      else Collect(rows[..n], col, width)
  }

  /** The members a built index holds: those with a request in some row. */
  predicate HasRequestRow(rows: seq<RequestRow>, name: Name, col: int, width: nat) {
    exists i :: 0 <= i < |rows| && rows[i].name == name && Requested(ReadCell(rows[i], col, width))
  }

  /** The loop builds an entry for exactly the members with a request in
      some row. */
  lemma {:induction false} CollectKeys(rows: seq<RequestRow>, col: int, width: nat, name: Name)
    ensures name in Collect(rows, col, width) <==> HasRequestRow(rows, name, col, width)
    decreases |rows|
  {
    if |rows| > 0 {
      var n := |rows| - 1;
      var prefix := rows[..n];
      CollectKeys(prefix, col, width, name);
      if HasRequestRow(rows, name, col, width) {
        var i :| 0 <= i < |rows| && rows[i].name == name &&
          Requested(ReadCell(rows[i], col, width));
        if i < n {
          assert prefix[i] == rows[i];
        }
      }
      if HasRequestRow(prefix, name, col, width) {
        var i :| 0 <= i < n && prefix[i].name == name && Requested(ReadCell(prefix[i], col, width));
        assert rows[i] == prefix[i];
      }
    }
  }

  /** Each member's entry holds the tokens of that member's last row with a
      request: later rows overwrite earlier ones. */
  lemma {:induction false} CollectValues(rows: seq<RequestRow>, col: int, width: nat, i: int)
    requires 0 <= i < |rows| && Requested(ReadCell(rows[i], col, width)) &&
             LastRequest(rows, i, col, width)
    ensures rows[i].name in Collect(rows, col, width)
    ensures Collect(rows, col, width)[rows[i].name]
             == ParseCell(ReadCell(rows[i], col, width).value)
    decreases |rows|
  {
    var n := |rows| - 1;
    if i < n {
      var prefix := rows[..n];
      assert prefix[i] == rows[i];
      forall j | i < j < |prefix| && prefix[j].name == prefix[i].name
        ensures !Requested(ReadCell(prefix[j], col, width))
      {
        assert prefix[j] == rows[j];
      }
      CollectValues(prefix, col, width, i);
    }
  }

  /** `getVacationRequests(sheet, month)`: the month column is looked up
      in the eleven-column range B:L the code reads. */
  function BuildRequestsAsWritten(rows: seq<RequestRow>, month: int): Requests {
    Collect(rows, Months.MonthColumn(month), WrittenWidth)
  }

  /** `getVacationRequests(sheet, month)` reading all twelve month columns
      B:M, one per entry of `getMonthColumn`'s list. */
  function BuildRequests(rows: seq<RequestRow>, month: int): Requests {
    Collect(rows, Months.MonthColumn(month), FiscalWidth)
  }

  /** `isOnVacation`: the member has an entry and one of its tokens is the
      day of the month; a member without an entry is never on vacation, and
      a `NaN` token matches no day. */
  predicate OnVacation(name: Name, dayOfMonth: int, req: Requests) {
    name in req && Some(dayOfMonth) in req[name]
  }

  /** The index built from column `col` of a range `width` columns wide,
      when the column lies inside the range: a member has an entry exactly
      when one of their rows has a non-empty cell there, and is on vacation
      on a day exactly when their last such cell names the day. */
  lemma {:induction false} OnVacationReadsColumn(rows: seq<RequestRow>, col: int, width: nat,
                                                 name: Name, dayOfMonth: int)
    requires 0 <= col < width
    ensures var req := Collect(rows, col, width);
            && (name in req <==> exists i :: 0 <= i < |rows| && rows[i].name == name
                                    && col < |rows[i].cells| && |rows[i].cells[col]| > 0)
            && (OnVacation(name, dayOfMonth, req) <==>
                  exists i :: 0 <= i < |rows| && rows[i].name == name
                    && Requested(ReadCell(rows[i], col, width)) && LastRequest(rows, i, col, width)
                    && Some(dayOfMonth) in ParseCell(rows[i].cells[col]))
  {
    var req := Collect(rows, col, width);
    CollectKeys(rows, col, width, name);
    if OnVacation(name, dayOfMonth, req) {
      assert HasRequestRow(rows, name, col, width);
      var i :| 0 <= i < |rows| && rows[i].name == name && Requested(ReadCell(rows[i], col, width));
      var last := LastRowOf(rows, name, col, width, |rows|);
      assert LastRequest(rows, last, col, width);
      CollectValues(rows, col, width, last);
    }
    forall i | 0 <= i < |rows| && rows[i].name == name
                 && Requested(ReadCell(rows[i], col, width)) && LastRequest(rows, i, col, width)
      ensures req[name] == ParseCell(rows[i].cells[col])
    {
      CollectValues(rows, col, width, i);
    }
  }

  /** `isOnVacation` over the index `getVacationRequests` builds from the
      range B:L. For every month but March a member has an entry exactly
      when one of their rows has a non-empty cell in that month's column,
      and is on vacation on a day exactly when their last such cell names
      the day. In March the column lies outside the range, so nobody has an
      entry and nobody is ever on vacation. */
  lemma OnVacationReadsSheet(rows: seq<RequestRow>, month: int, name: Name, dayOfMonth: int)
    requires Months.IsMonth(month)
    ensures var col := Months.MonthColumn(month);
            var req := BuildRequestsAsWritten(rows, month);
            && (name in req <==>
                  month != 3 && (exists i :: 0 <= i < |rows| && rows[i].name == name
                                   && col < |rows[i].cells| && |rows[i].cells[col]| > 0))
            && (OnVacation(name, dayOfMonth, req) <==>
                  month != 3 && (exists i :: 0 <= i < |rows| && rows[i].name == name
                                   && Requested(ReadCell(rows[i], col, WrittenWidth)) &&
                                     LastRequest(rows, i, col, WrittenWidth)
                                   && Some(dayOfMonth) in ParseCell(rows[i].cells[col])))
  {
    var col := Months.MonthColumn(month);
    Months.FiscalColumnClosedForm(month);
    if month == 3 {
      MarchIgnoredAsWritten(rows);
    } else {
      OnVacationReadsColumn(rows, col, WrittenWidth, name, dayOfMonth);
    }
  }

  /** The same reading over all twelve month columns B:M, March included. */
  lemma OnVacationReadsSheetCorrected(rows: seq<RequestRow>, month: int, name: Name,
                                      dayOfMonth: int)
    requires Months.IsMonth(month)
    ensures var col := Months.MonthColumn(month);
            var req := BuildRequests(rows, month);
            && (name in req <==> exists i :: 0 <= i < |rows| && rows[i].name == name
                                    && col < |rows[i].cells| && |rows[i].cells[col]| > 0)
            && (OnVacation(name, dayOfMonth, req) <==>
                  exists i :: 0 <= i < |rows| && rows[i].name == name
                    && Requested(ReadCell(rows[i], col, FiscalWidth)) &&
                      LastRequest(rows, i, col, FiscalWidth)
                    && Some(dayOfMonth) in ParseCell(rows[i].cells[col]))
  {
    OnVacationReadsColumn(rows, Months.MonthColumn(month), FiscalWidth, name, dayOfMonth);
  }

  /** The decimal texts of some days, as typed into a request cell. */
  function ShowDays(days: seq<nat>): (texts: seq<string>)
    ensures |texts| == |days|
    ensures forall k :: 0 <= k < |days| ==> texts[k] == Tokens.Show(days[k])
  {
    seq(|days|, k requires 0 <= k < |days| => Tokens.Show(days[k]))
  }

  /** A cell that lists days with any non-empty run of spaces, commas or
      `、` in each gap ("3, 10、24") reads as exactly those days, in order. */
  lemma {:induction false} CellListsDays(days: seq<nat>, seps: seq<string>)
    requires |days| > 0 && |seps| == |days| - 1
    requires Tokens.SeparatorRuns(seps)
    ensures var parsed := ParseCell(Tokens.JoinRuns(ShowDays(days), seps));
            |parsed| == |days| && forall k :: 0 <= k < |days| ==> parsed[k] == Some(days[k] as int)
  {
    var texts := ShowDays(days);
    forall k | 0 <= k < |texts|
      ensures |texts[k]| > 0 && Tokens.DelimiterFree(texts[k])
    {
      Tokens.ShowIsWord(days[k]);
    }
    Tokens.SplitJoin(texts, seps);
    var parsed := ParseCell(Tokens.JoinRuns(texts, seps));
    forall k | 0 <= k < |days|
      ensures parsed[k] == Some(days[k] as int)
    {
      Tokens.ParseIntShow(days[k], []);
      assert texts[k] + [] == texts[k];
    }
  }

  /** A run of separators before the listed days adds an empty piece at
      the front, and one after them adds an empty piece at the end; either
      run may be absent. `parseInt` reads an empty piece as `NaN`, a value
      no day matches. */
  lemma CellPaddedBySeparators(lead: string, text: string, trail: string)
    requires Tokens.AllDelimiters(lead) && Tokens.AllDelimiters(trail)
    requires |text| > 0 && !Tokens.IsDelimiter(text[0]) && !Tokens.IsDelimiter(text[|text| - 1])
    ensures ParseCell(lead + text + trail)
            == (if |lead| > 0 then [None] else []) + ParseCell(text)
               + (if |trail| > 0 then [None] else [])
  {
    var head: seq<string> := if |lead| > 0 then [[]] else [];
    var tail: seq<string> := if |trail| > 0 then [[]] else [];
    Tokens.SplitPadded(lead, text, trail);
    ParseTokensConcat(head, Tokens.Split(text));
    ParseTokensConcat(head + Tokens.Split(text), tail);
    assert Tokens.ParseInt([]) == None;
    assert ParseTokens(head) == if |lead| > 0 then [None] else [];
    assert ParseTokens(tail) == if |trail| > 0 then [None] else [];
  }

  /** A blank or absent cell is no request, so a month column outside the
      range read contributes no entry at all. */
  lemma {:induction false} NoColumnNoRequests(rows: seq<RequestRow>, col: int, width: nat)
    requires !(0 <= col < width)
    ensures Collect(rows, col, width) == map[]
  {
    var req := Collect(rows, col, width);
    forall name | name in req
      ensures false
    {
      CollectKeys(rows, col, width, name);
    }
    assert req.Keys == {};
  }

  /** As written, March (fiscal column 11) falls outside the range B:L, so
      the index for March is empty whatever the sheet holds. */
  lemma MarchIgnoredAsWritten(rows: seq<RequestRow>)
    ensures BuildRequestsAsWritten(rows, 3) == map[]
  {
    NoColumnNoRequests(rows, Months.MonthColumn(3), WrittenWidth);
  }

  /** With all twelve columns read, a March request is in the index. */
  lemma MarchRequestHonoured(rows: seq<RequestRow>, i: int)
    requires 0 <= i < |rows| && |rows[i].cells| == 12 && |rows[i].cells[11]| > 0
    ensures rows[i].name in BuildRequests(rows, 3)
    ensures rows[i].name !in BuildRequestsAsWritten(rows, 3)
  {
    assert Months.MonthColumn(3) == 11;
    CollectKeys(rows, 11, FiscalWidth, rows[i].name);
    MarchIgnoredAsWritten(rows);
  }

  /** For every other month the two ranges agree: the eleventh column is
      the only one the written range misses. */
  lemma {:induction false} OtherMonthsUnaffected(rows: seq<RequestRow>, month: int)
    requires month != 3
    ensures BuildRequestsAsWritten(rows, month) == BuildRequests(rows, month)
  {
    var col := Months.MonthColumn(month);
    assert col < 11 by {
      if Months.IsMonth(month) {
        Months.FiscalColumnClosedForm(month);
      }
    }
    SameCollectBelowEleven(rows, col);
  }

  lemma {:induction false} SameCollectBelowEleven(rows: seq<RequestRow>, col: int)
    requires col < 11
    ensures Collect(rows, col, WrittenWidth) == Collect(rows, col, FiscalWidth)
    decreases |rows|
  {
    if |rows| > 0 {
      SameCollectBelowEleven(rows[..|rows| - 1], col);
    }
  }

  /** The last row among the first `n` whose member is `name` and whose
      cell holds a request, or -1 when there is none. */
  function LastRowOf(rows: seq<RequestRow>, name: Name, col: int, width: nat, n: nat): (last: int)
    requires n <= |rows|
    ensures -1 <= last < n
    ensures last != -1 ==> rows[last].name == name && Requested(ReadCell(rows[last], col, width))
    ensures forall j :: last < j < n ==>
            !(rows[j].name == name && Requested(ReadCell(rows[j], col, width)))
  {
    if n == 0 then -1
    else if rows[n - 1].name == name && Requested(ReadCell(rows[n - 1], col, width)) then n - 1
    else LastRowOf(rows, name, col, width, n - 1)
  }
}
